=== FILE: README.md ===
# Set rule engine — a Dafny model

This project models the rule engine of a browser implementation of the card
game Set: the immutable `Card`, the `cardUtility` helpers that decide which
groups of cards form a set and that number the cards of an attribute
universe, the `Deck` container, the per-player `PlayerState` and the
`GameState` that owns the face-down pile, the face-up table, the players,
the player currently calling a set and the cards they have selected.

Everything is stated as pure functions over immutable datatypes:

- `Cards` — a card is a list of `(name, value)` pairs in key order plus its
  integer ID; a missing key reads as absent, as JavaScript `undefined` does.
- `CardIds` — the attribute universe, `numPossibleCards`, and the
  mixed-radix bijection `cardToId` / `idToCard` (attribute 0 is the least
  significant digit), proved to be mutually inverse.
- `Combinations` — the strictly increasing index tuples that
  `possibleSets` walks through, in the same lexicographic order.
- `SetRule` — `mismatchedAttributes`, `isSet` and `possibleSets`.
- `Decks` — every `Deck` operation, with the deck invariant (cards of the
  universe, no card twice).
- `Players` — `PlayerState`; a player refers to its game by ID only.
- `Games` and `GameInvariants` — every kernel and secondary `GameState`
  operation, the documented game invariant, and one preservation lemma per
  transition.

`Wrappers` (an `Option` type) and `Sequences` (duplicate-freedom,
sub-sequences, index search) are supporting modules.

## Model

| member | source | states |
|---|---|---|
| Cards.Attribute | Model/card.js:78-90 | the value of a key is absent exactly when the card has no such key, and otherwise is the value stored under it |
| Cards.AttributeNames | Model/card.js:56-65 | one name per key, and a name is listed exactly when the card has a value for it |
| Cards.NewCard | Model/card.js:41-54 | the card keeps the given ID and key order, has a value for exactly the given names, and with distinct names reads back every given pair |
| Cards.AttributeOfStoredPair | Model/card.js:20-34 | a card with distinct keys maps each of its keys to the value stored with it |
| CardIds.NumPossibleCards | Model/cardUtility.js:156-182 | the empty universe has one card, and the count is positive exactly when every attribute has at least one value |
| CardIds.UniverseSize | Model/cardUtility.js:156-182 | the set of all cards of a universe has exactly numPossibleCards members, and a card is in it exactly when it is a card of the universe |
| CardIds.IdToCard | Model/cardUtility.js:230-268 | the card carries the requested ID and has exactly the universe's keys, each with one of its allowed values |
| CardIds.CardToIdInRange | Model/cardUtility.js:184-228 | the ID of a conforming card lies in 0 .. numPossibleCards - 1 |
| CardIds.IdFrom | Model/cardUtility.js:211-225 | the offsets of attributes i, i+1, ... summed with each offset scaled by the product of the radices before it, the sum the forEach builds with `id` and `magnitude`, written innermost-first |
| CardIds.CardToId | Model/cardUtility.js:184-228 | cardToId is that sum taken from the first attribute; an absent or unknown value contributes offset -1, as `indexOf` does |
| CardIds.IdFromInRange | Model/cardUtility.js:211-228 | each partial sum of offsets times magnitudes stays below the product of the remaining radices |
| CardIds.DigitsOfIdFrom | Model/cardUtility.js:254-265 | peeling digits off a card's ID with remainder and division gives back the card's values |
| CardIds.IdFromDigits | Model/cardUtility.js:211-228 | the card built from the digits of x has ID x |
| CardIds.CardToIdOfIdToCard | Model/cardUtility.js:230-268 | cardToId(idToCard(id)) == id, and idToCard yields a card of the universe |
| CardIds.IdToCardOfCardToId | Model/cardUtility.js:184-268 | idToCard(cardToId(c)) has c's attributes, and is c itself for a card of the universe |
| CardIds.CardToIdInjective | Model/cardUtility.js:184-228 | distinct conforming cards get distinct IDs |
| SetRule.Column | Model/cardUtility.js:57-57 | one value per card, in card order, and a value occurs in the list exactly when some card has it for that attribute (absent included), which is what the distinct-value count is taken over |
| SetRule.MismatchedIffNeitherSameNorDifferent | Model/cardUtility.js:57-65 | the unique-value count test flags an attribute exactly when its values are neither all the same nor all different |
| SetRule.FilterMismatched | Model/cardUtility.js:52-67 | keeps exactly the listed names that are mismatched, in their order |
| SetRule.MismatchedAttributes | Model/cardUtility.js:30-70 | no cards give no names; otherwise a name is reported exactly when it is a key of the first card and its values are neither all the same nor all different, in key order and without repeats |
| SetRule.InColumn | Model/cardUtility.js:57-62 | a value occurs in the column exactly when some card has it |
| SetRule.MismatchedOrderIndependent | Model/cardUtility.js:30-70 | over cards with the same keys, reordering the cards does not change which names are reported |
| SetRule.IsSet | Model/cardUtility.js:72-92 | a set has exactly the requested number of cards; no cards form a set only when zero are requested |
| SetRule.IsSetIffSetRule | Model/cardUtility.js:72-92 | isSet holds exactly when the count matches and every attribute is all-same or all-different |
| SetRule.IsSetOrderIndependent | Model/cardUtility.js:72-92 | reordering cards with the same keys does not change whether they form a set |
| Combinations.Combos | Model/cardUtility.js:116-150 | every listed tuple is a strictly increasing k-tuple of indices in range |
| Combinations.CombosComplete | Model/cardUtility.js:116-150 | every strictly increasing k-tuple of indices in range is listed |
| Combinations.CombosSorted | Model/cardUtility.js:137-150 | the tuples are listed in strictly ascending lexicographic order, so none twice |
| Combinations.CombosCount | Model/cardUtility.js:116-150 | there are exactly C(n, k) tuples |
| SetRule.Pick | Model/cardUtility.js:128-128 | one card per index, in the tuple's order; every picked card comes from the list; strictly increasing indices into a duplicate-free list pick distinct cards |
| SetRule.KeepSets | Model/cardUtility.js:131-133 | keeps exactly the tuples whose cards form a set, preserving sorted order |
| SetRule.SetIndices | Model/cardUtility.js:109-154 | a tuple is listed exactly when it is an increasing k-tuple of indices whose cards form a set; listing in ascending order |
| SetRule.PossibleSets | Model/cardUtility.js:94-154 | every result is a set, every combination of k cards that forms a set is reported, and nothing is reported for k = 0 or too few cards |
| SetRule.PossibleSetsDistinct | Model/cardUtility.js:94-154 | over distinct cards no combination is reported twice and each reported set has distinct cards |
| SetRule.PossibleSetsSubset | Model/cardUtility.js:94-154 | every reported card comes from the input list |
| Decks.Valid | Model/deck.js:33-42 | the documented deck invariant (every card has the universe's keys with allowed values, and no card is listed twice), plus a usable universe and each card carrying its own ID |
| Decks.Empty | Model/deck.js:76-99 | a new deck is over the given universe and holds no cards |
| Decks.AddCard | Model/deck.js:101-123 | a card already present leaves the deck unchanged; otherwise it is inserted at the position and the deck stays duplicate-free |
| Decks.RemoveCard | Model/deck.js:125-140 | the card's one occurrence is removed and nothing else changes; an absent card leaves the deck as it was |
| Decks.AddThenRemove | Model/deck.js:101-140 | removing a card just added gives back the original deck |
| Decks.RemoveThenAdd | Model/deck.js:101-140 | re-inserting a removed card at its old position gives back the original deck |
| Decks.FindByPos | Model/deck.js:156-172 | a card is returned exactly when the position is in range, and it is the card there |
| Decks.Size | Model/deck.js:174-181 | the size is the number of cards, zero exactly for an empty deck |
| Decks.HasCard | Model/deck.js:268-278 | true exactly when the card occurs in the deck |
| Decks.AddToTop | Model/deck.js:211-230 | a new card goes to the front; a card already present leaves the deck unchanged |
| Decks.AddToBottom | Model/deck.js:232-251 | a new card goes to the end; a card already present leaves the deck unchanged |
| Decks.AddToBottomAsWritten | Model/deck.js:249-251 | addToBottom as the code runs it: a held card changes nothing, otherwise the card is spliced in at `size() - 1`, clamped as `splice` clamps a negative start; on an empty deck that gives just the card |
| Decks.AddToBottomAsWrittenMisplaces | Model/deck.js:249-251 | inserting at position size - 1 puts the new card before the old last card, not at the bottom |
| Decks.RemoveTop | Model/deck.js:253-266 | the first card is returned and removed; an empty deck returns nothing and is unchanged |
| Decks.RemoveTopThenAddToTop | Model/deck.js:211-266 | putting the removed top card back on top restores the deck |
| Decks.Clear | Model/deck.js:200-209 | the deck keeps its universe and holds no cards |
| Decks.Descending | Model/deck.js:194-198 | the cards with IDs n-1 down to 0, in that order |
| Decks.GenerateUpToMembers | Model/deck.js:194-198 | after adding the first n IDs to the top, a card is present exactly when it was before or is one of those n cards |
| Decks.Generate | Model/deck.js:183-198 | keeps every card already present, adds every card of the universe, and keeps the deck duplicate-free |
| Decks.GenerateFromEmpty | Model/deck.js:183-198 | generating into an empty deck gives a valid deck holding every card of the universe, highest ID on top |
| Decks.GenerateValid | Model/deck.js:183-198 | from a valid deck, the result is valid, holds exactly the cards of the universe, and has numPossibleCards cards |
| Decks.AddingKeepsValid | Model/deck.js:33-42 | adding a card of the universe anywhere keeps the deck invariant |
| Decks.RemovingKeepsValid | Model/deck.js:33-42 | removing a card, removing the top or clearing keeps the deck invariant |
| Decks.GetId | Model/deck.js:310-325 | the ID is in range and maps back to the card |
| Decks.FindById | Model/deck.js:280-308 | a result is a card of the deck with that ID, and no result means no card of the deck has that ID |
| Decks.CardIdMap | Model/deck.js:338-355 | every card is keyed by its ID, every entry is a card of the deck under its own ID, and a valid deck gives one entry per card |
| Decks.CardIdMapOfSize | Model/deck.js:338-355 | distinct cards of the universe give as many map entries as cards |
| Decks.PossibleSets | Model/deck.js:357-376 | the sets of the deck's cards, each wrapped as a deck over the same universe, each a set, and valid when the deck is |
| Decks.HasSets | Model/deck.js:378-390 | true exactly when some k-combination of the deck's cards forms a set |
| Decks.IsSet | Model/deck.js:392-403 | true exactly when the deck has k cards and they satisfy the set rule |
| Decks.MismatchedAttributes | Model/deck.js:405-420 | the mismatched attribute names of the deck's cards |
| Players.NewPlayer | Model/playerState.js:71-93 | a new player has the given ID and name, no penalties and an empty, valid hand |
| Players.ReceiveCard | Model/playerState.js:95-104 | the card goes on top of the hand unless already there; nothing else about the player changes; the hand stays valid |
| Players.ReceivePenalty | Model/playerState.js:106-115 | penalties grow by the amount and nothing else changes |
| Players.ReceivePenaltyAccumulates | Model/playerState.js:106-115 | two penalties add up, and a zero penalty changes nothing |
| Players.NumCards | Model/playerState.js:167-177 | the number of cards in the hand, zero exactly for an empty hand |
| Players.NumCardsAfterReceive | Model/playerState.js:95-104 | receiving a new card adds one card, and a held card adds none |
| Games.PlayerIndex | Model/gameState.js:417-427 | the position of the first player with the ID, or -1 exactly when there is none |
| Games.CardsInv | Model/gameState.js:42-87 | the documented card conjuncts: hands pairwise disjoint and disjoint from both pools, the pools disjoint, every card built on the attribute set, face-down and face-up lists duplicate-free, and the pools plus all hands holding numPossibleCards cards; added: each hand is a valid deck (the hand invariant at Model/playerState.js:34-36) and every deck uses the game's attribute set |
| Games.PlayersInv | Model/gameState.js:42-87 | the documented player conjuncts: distinct player IDs (so no player is listed twice) and the active player, if any, is listed |
| Games.SelectionInv | Model/gameState.js:42-87 | the documented selection conjuncts: the selection is duplicate-free and a subset of the face-up cards; added: at most cards-per-set cards are selected and the selection uses the game's attribute set |
| Games.Inv | Model/gameState.js:42-87 | the game invariant: the card, player and selection conjuncts together; the additions are the cap on the selection and cards carrying their own IDs (see Games.Inv under Left out) |
| Games.Init | Model/gameState.js:142-173 | no players, nobody active, nothing face up or selected, and every card of the universe face down |
| GameInvariants.InitInv | Model/gameState.js:42-87 | the new game satisfies the game invariant |
| Games.NewPlayerId | Model/gameState.js:175-199 | the new ID is one above the highest existing ID, or 0 with no players, so no player has it |
| Games.AddPlayer | Model/gameState.js:175-199 | one player is appended with the name, a fresh ID, an empty hand and no penalties; nothing else changes |
| GameInvariants.AddPlayerInv | Model/gameState.js:42-87 | adding a player keeps the game invariant |
| Games.RemovePlayer | Model/gameState.js:201-214 | the player with the ID is removed and nothing else changes; an unknown ID changes nothing |
| GameInvariants.RemovePlayerInv | Model/gameState.js:42-87 | removing a player with an empty hand who is not calling a set keeps the game invariant |
| GameInvariants.RemoveActivePlayerBreaksInv | Model/gameState.js:201-214 | removing the player calling a set leaves the active player outside the player list |
| Games.RevealCard | Model/gameState.js:245-266 | the top face-down card is moved to the end of the face-up cards and returned; no face-down card means nothing changes |
| GameInvariants.RevealCardInv | Model/gameState.js:42-87 | revealing a card keeps the game invariant |
| Games.HandleSetCall | Model/gameState.js:268-286 | when nobody is active a listed player becomes active with an empty selection; otherwise nothing changes |
| Games.FirstCallerWins | Model/gameState.js:268-286 | once a player is active a second call changes nothing |
| GameInvariants.HandleSetCallInv | Model/gameState.js:42-87 | a set call keeps the game invariant |
| Games.CallSet | Model/playerState.js:141-153 | a player's call is the game's set call made with the player's ID |
| GameInvariants.CallSetInv | Model/gameState.js:42-87 | a player's set call keeps the game invariant |
| Games.SelectCard | Model/gameState.js:300-332 | a face-up card not yet selected is appended, dropping the earliest selection when the selection was full; the selection never exceeds cards-per-set and stays duplicate-free |
| Games.SelectCardAsWritten | Model/gameState.js:322-332 | selectCard as the code runs it: a face-up card goes through the as-written addToBottom and nothing is ever dropped, because the size test never holds |
| GameInvariants.SelectCardAsWrittenExceedsCap | Model/gameState.js:322-332 | without the eviction, selecting into a full selection leaves cards-per-set + 1 cards |
| GameInvariants.SelectCardInv | Model/gameState.js:42-87 | selecting a card keeps the game invariant |
| Games.DeselectCard | Model/gameState.js:334-344 | exactly one occurrence of the card leaves the selection; nothing else changes |
| Games.SelectThenDeselect | Model/gameState.js:300-344 | deselecting a card just selected into a non-full selection restores the game |
| GameInvariants.DeselectCardInv | Model/gameState.js:42-87 | deselecting a card keeps the game invariant |
| Games.ClearSetCall | Model/gameState.js:346-356 | nobody is active and nothing is selected; nothing else changes |
| GameInvariants.ClearSetCallInv | Model/gameState.js:42-87 | clearing the set call keeps the game invariant |
| Games.GiveCard | Model/gameState.js:358-375 | a face-up card goes from the table to the listed player's hand and no one else changes; otherwise nothing changes |
| GameInvariants.GiveCardInv | Model/gameState.js:42-87 | giving away an unselected card keeps the game invariant |
| GameInvariants.GiveSelectedCardBreaksInv | Model/gameState.js:358-375 | giving away a selected card leaves a selected card that is not face up |
| Games.GivePenalty | Model/gameState.js:377-391 | the listed player's penalties grow by the amount and no one else changes |
| GameInvariants.GivePenaltyInv | Model/gameState.js:42-87 | a penalty keeps the game invariant |
| Games.FindPlayerById | Model/gameState.js:405-427 | a player is found exactly when one has the ID, and it is a listed player with that ID |
| Games.ScanAsWritten | Model/gameState.js:421-425 | the forEach of findPlayerById as written: a player replaces the result only when the result is already non-null and the player has the ID |
| Games.FindPlayerByIdAsWritten | Model/gameState.js:417-427 | findPlayerById as written: the scan started from null |
| Games.FindPlayerByIdAsWrittenMisses | Model/gameState.js:417-427 | the guard `result != null` is false from the start, so a listed player is never found |
| Games.PlayerIdMap | Model/gameState.js:429-447 | keys are exactly the listed IDs, each mapped to the player with that ID, one entry per player when IDs are distinct |
| Games.ToggleCardSelection | Model/gameState.js:490-515 | a selected card is deselected; an unselected face-up card is appended to the selection, and when the selection was already full its earliest card is dropped; a card neither selected nor face up changes nothing |
| Games.ToggleTwice | Model/gameState.js:490-515 | toggling a card into a non-full selection and back restores the game |
| GameInvariants.ToggleCardSelectionInv | Model/gameState.js:42-87 | toggling keeps the game invariant |
| Games.DeselectAll | Model/gameState.js:517-526 | deselecting a list of cards removes exactly their occurrences from the selection |
| Games.ClearSelection | Model/gameState.js:517-526 | the selection becomes empty and nothing else changes |
| Games.ForEachDeselectAsWritten | Model/gameState.js:522-526 | forEach over the live selection array: visit index i, deselect that card (which shifts the later cards down), go on with index i + 1 until the index passes the current length |
| Games.ClearSelectionAsWritten | Model/gameState.js:522-526 | clearSelection as written: that loop started at index 0 |
| Games.ClearSelectionAsWrittenLeavesCards | Model/gameState.js:522-526 | deselecting while iterating visits only half of the selection, so half the cards stay selected |
| GameInvariants.ClearSelectionInv | Model/gameState.js:42-87 | clearing the selection keeps the game invariant |
| Games.PossibleSets | Model/gameState.js:528-540 | the i-th result is the face-up cards at the i-th set-forming combination, so every result is a set drawn from distinct face-up positions; every set-forming combination is reported; over distinct face-up cards no set is reported twice and each has distinct cards |
| Games.PossibleSetsAsDecks | Model/gameState.js:542-555 | the face-up sets, each as a deck over the face-up universe, valid when the face-up deck is |
| Games.CanFormSets | Model/gameState.js:557-568 | true exactly when some combination of face-up cards forms a set |
| Games.CanFormSetsIffPossibleSets | Model/gameState.js:528-568 | sets can be formed exactly when the list of possible sets is non-empty |
| Games.SetFormed | Model/gameState.js:570-580 | true exactly when the selection has cards-per-set cards that satisfy the set rule |
| Games.SetFormedAsWritten | Model/gameState.js:578-580 | setFormed as written: isSet with the card count left undefined, which no length equals |
| Games.SetFormedAsWrittenMissesSet | Model/gameState.js:578-580 | with the set size left undefined a one-card set over a one-value universe is not recognised |
| Games.MismatchedAttributes | Model/gameState.js:582-596 | the names of the first selected card whose values across the selection are neither all the same nor all different |
| Games.PenalizeActivePlayer | Model/gameState.js:623-635 | the active player's penalties grow by the amount and nothing else about the game or the other players changes; with nobody active nothing changes |
| GameInvariants.PenalizeActivePlayerInv | Model/gameState.js:42-87 | penalising the active player keeps the game invariant |
| Games.GiveAll | Model/gameState.js:614-620 | giving cards one by one keeps the IDs, the face-down pile, the active player and the selection, only shrinks the table and only grows hands |
| GameInvariants.GiveAllMovesCards | Model/gameState.js:598-621 | every given face-up card ends up in the player's hand and off the table |
| Games.GiveSet | Model/gameState.js:598-621 | without a formed set nothing changes; with one the selection is emptied and the pile and active player are kept |
| GameInvariants.GiveSetMovesSelection | Model/gameState.js:598-621 | after a formed set is given, every selected card is in the active player's hand and no longer face up |
| GameInvariants.GiveSetInv | Model/gameState.js:42-87 | giving a set keeps the game invariant |

## Left out

- Shuffling (`Deck.shuffle`, `GameState.shuffleCards`): it is randomness, and the model has no random source.
- The View layer and the accessors that only hand back a field are not modelled.
- The back-reference from a player to its game is an ID. So the player invariant "this is in game_state.player_list" is not modelled, and `callSet` takes the game as a parameter.
- JavaScript object identity is not modelled. Cards and players are values compared structurally. A card of the universe carries its own ID, so two such cards are equal exactly when their attributes are.
- Integers are unbounded. The source's card counts and IDs stay far below 2^53, where JavaScript numbers stop being exact. `CardIds.Mul` is ordinary multiplication written as repeated addition, and is proved equal to `*`.
- The `Deck` constructor's optional initial card list is not modelled; a deck starts empty.
- A card's keys are kept in the universe's key order. `idToCard` is the only card factory the game uses, and it produces that order.
- `cardsPerSet` is a natural number. In the source a negative count makes `Array(cardsPerSet)` at Model/cardUtility.js:116 throw a RangeError, so `possibleSets` cannot run with one.
- GameInvariants.RemovePlayerInv: requires that the removed player holds no cards, as Model/gameState.js:206-207 asks of callers. It also requires that the player is not calling a set. The source does not check this, and removing the active player breaks the invariant (see GameInvariants.RemoveActivePlayerBreaksInv).
- GameInvariants.GiveCardInv: requires that the card is not selected. Giving away a selected card breaks "selected cards are face up" (see GameInvariants.GiveSelectedCardBreaksInv).
- Games.RevealCard: puts the revealed card last on the table, using the corrected `addToBottom` (see Findings).
- Games.SelectCard: uses the corrected `addToBottom`. It follows the code, appending the card and dropping the top (earliest) card. The comment at Model/gameState.js:314-319 says the card goes first and the last card is dropped instead.
- Games.Inv: adds "at most cards-per-set cards are selected" to the documented invariant. It also makes "a card of the universe" include carrying its own ID.
- Players.NewPlayer: models the documented empty hand. The source calls `Deck.new` (Model/playerState.js:91), which is not a function.
- Games.AddPlayer: models the documented fresh ID, one above the highest. The source calls `getID`, but the player method is `getId` (Model/gameState.js:192).
- Games.PlayerIdMap: the same `getID` slip is in Model/gameState.js:444.
- Players.NumCards: models the documented count. Model/playerState.js:176 reads `size` without calling it.
- Games.MismatchedAttributes: models the documented result. Model/gameState.js:595 reads `getSelectedDeck` without calling it.
- Games.GiveSet: models the documented result. As written its body never runs: it is guarded by `setFormed()`, which is always false (see the Findings row for Model/gameState.js:578-580), so the source never hands out a set. Even if it ran, Model/gameState.js:616 reads `getSelectedCards` without calling it. The selection is cleared with the corrected `clearSelection`. The source does not clear the active player, and neither does the model.
- Decks.FindById: models the documented search. Model/deck.js:301 refers to an undeclared `card`.
- Penalty amounts: `receivePenalty`, `givePenalty` and `penalizeActivePlayer` default `amount` to 1 (Model/playerState.js:113, Model/gameState.js:387, Model/gameState.js:633). The model has no default arguments, so callers always pass the amount explicitly.

## Findings

| source | as written | input that shows it | evidently intended | confidence | as-written member | corrected member |
|---|---|---|---|---|---|---|
| Model/deck.js:249-251 | `addToBottom` inserts at position `size() - 1` | deck [a], add b: result [b, a] | the card becomes the last card | not executed | Decks.AddToBottomAsWrittenMisplaces | Decks.AddToBottom |
| Model/gameState.js:322-332 | `this.selectedCards.size > this.cardsPerSet` compares a method, not its result, so it is always false | cards-per-set 1, selection [a], select face-up b: selection [b, a], two cards although cards-per-set is 1 | the earliest card is dropped so the selection keeps cards-per-set cards | not executed | GameInvariants.SelectCardAsWrittenExceedsCap | Games.SelectCard |
| Model/gameState.js:578-580 | `isSet()` is called without the cards-per-set argument | universe color: [red], cards-per-set 1, selection [the red card] | the selection is checked against cards-per-set | not executed | Games.SetFormedAsWrittenMissesSet | Games.SetFormed |
| Model/gameState.js:522-526 | `forEach` over the selection while `deselectCard` splices it skips every other card | selection [a, b]: b stays selected | the selection becomes empty | not executed | Games.ClearSelectionAsWrittenLeavesCards | Games.ClearSelection |
| Model/gameState.js:417-427 | the guard `result != null && …` can never become true from `null` | any listed player's ID: null is returned | the player with the ID is returned | not executed | Games.FindPlayerByIdAsWrittenMisses | Games.FindPlayerById |

=== FILE: card_ids.dfy ===
/**
  The attribute universe and the mixed-radix bijection between the cards it
  generates and the integers 0 .. numPossibleCards - 1. Attribute i is the
  i-th digit of the ID, with radix equal to its number of values; the first
  attribute is the least significant digit.
*/
module CardIds {
  import opened Wrappers
  import opened Sequences
  import opened Cards

  /** One attribute of the universe: its name and the ordered list of values it can take. */
  datatype AttributeDef = AttributeDef(name: Name, values: seq<Value>)

  /** The attribute universe, in key order; that order fixes the ID encoding. */
  type AttributeSet = seq<AttributeDef>

  function Names(u: AttributeSet): seq<Name> {
    seq(|u|, i requires 0 <= i < |u| => u[i].name)
  }

  /**
    A usable universe: attribute names are distinct (they are the keys of an
    object) and every value list is non-empty and duplicate-free.
  */
  predicate ValidAttributeSet(u: AttributeSet) {
    && NoDup(Names(u))
    && forall i :: 0 <= i < |u| ==> |u[i].values| > 0 && NoDup(u[i].values)
  }

  /**
    The card has one key per attribute of the universe, laid out in the
    universe's key order, and each value is one of that attribute's values.
  */
  predicate Conforms(u: AttributeSet, c: Card) {
    && |c.attrs| == |u|
    && forall i :: 0 <= i < |u| ==> c.attrs[i].0 == u[i].name && c.attrs[i].1 in u[i].values
  }

  /** A card of the universe: it conforms and carries its own ID. */
  predicate InUniverse(u: AttributeSet, c: Card) {
    Conforms(u, c) && c.id == CardToId(u, c)
  }

  // ----- arithmetic helpers -----

  lemma MulLeftMono(a: nat, b: int, c: int)
    requires b <= c
    ensures a * b <= a * c
  {
    var d: nat := c - b;
    assert a * c - a * b == a * d;
  }

  lemma DivBelow(x: nat, a: nat, b: nat)
    requires x < a * b
    ensures a > 0 && x / a < b
  {
    if a > 0 && x / a >= b {
      MulLeftMono(a, b, x / a);
    }
  }

  lemma DivModSplit(x: nat, n: nat)
    requires n > 0
    ensures 0 <= x % n < n && x == x % n + n * (x / n)
  {
  }

  lemma DigitBound(x: int, p: int, d: int, a: nat, r: int, b: nat)
    requires x == d + a * r && p == a * b
    requires 0 <= d < a && 0 <= r < b
    ensures 0 <= x < p
  {
    MulLeftMono(a, r, b - 1);
    MulLeftMono(a, 0, r);
    assert a * (b - 1) == a * b - a;
  }

  lemma DivModOfDigit(d: int, a: nat, r: int)
    requires 0 <= d < a && 0 <= r
    ensures (d + a * r) % a == d && (d + a * r) / a == r
  {
    var x := d + a * r;
    var q, m := x / a, x % a;
    assert x == a * q + m;
    if q > r {
      MulLeftMono(a, 1, q - r);
    } else if q < r {
      MulLeftMono(a, 1, r - q);
    }
  }

  /**
    a * b by repeated addition. The radix products below are written with it
    so that unfolding an ID or a population size one step stays linear.
  */
  function Mul(a: nat, b: int): int {
    if a == 0 then 0 else b + Mul(a - 1, b)
  }

  lemma {:induction false} MulIsProduct(a: nat, b: int)
    ensures Mul(a, b) == a * b
  {
    if a > 0 {
      MulIsProduct(a - 1, b);
    }
  }

  // ----- population size -----

  /** The product of the value-list lengths of attributes i, i+1, ... */
  function PlacesFrom(u: AttributeSet, i: nat): (p: nat)
    ensures p > 0 <==> forall j :: i <= j < |u| ==> |u[j].values| > 0
    decreases |u| - i
  {
    if i >= |u| then 1
    else
      MulIsProduct(|u[i].values|, PlacesFrom(u, i + 1));
      Mul(|u[i].values|, PlacesFrom(u, i + 1))
  }

  lemma PlacesFromStep(u: AttributeSet, i: nat)
    requires i < |u|
    ensures PlacesFrom(u, i) == |u[i].values| * PlacesFrom(u, i + 1)
  {
    MulIsProduct(|u[i].values|, PlacesFrom(u, i + 1));
  }

  /** numPossibleCards: the product of the value-list lengths, 1 for an empty universe. */
  function NumPossibleCards(u: AttributeSet): (n: nat)
    ensures |u| == 0 ==> n == 1
    ensures n > 0 <==> forall j :: 0 <= j < |u| ==> |u[j].values| > 0
  {
    PlacesFrom(u, 0)
  }

  // ----- encoding -----

  /** Zero-based index of the value in the list; -1 for a value not in it or an absent value. */
  function ValueIndex(values: seq<Value>, v: Option<Value>): int {
    match v
    case None => -1
    case Some(x) => IndexOf(values, x)
  }

  /** The digits of attributes i, i+1, ... read as a mixed-radix number. */
  function IdFrom(u: AttributeSet, c: Card, i: nat): int
    decreases |u| - i
  {
    if i >= |u| then 0
    else ValueIndex(u[i].values, Attribute(c, u[i].name)) + Mul(|u[i].values|, IdFrom(u, c, i + 1))
  }

  /** cardToId: value index of each attribute times the product of the radices before it, summed. */
  function CardToId(u: AttributeSet, c: Card): int {
    IdFrom(u, c, 0)
  }

  // ----- decoding -----

  /** The (name, value) pairs of attributes i, i+1, ... for the number x: repeated modulo and division. */
  function DigitsFrom(u: AttributeSet, x: nat, i: nat): (r: seq<(Name, Value)>)
    requires i <= |u| && x < PlacesFrom(u, i)
    ensures |r| == |u| - i
    ensures forall j :: 0 <= j < |r| ==> r[j].0 == u[i + j].name && r[j].1 in u[i + j].values
    decreases |u| - i
  {
    if i == |u| then []
    else
      var n := |u[i].values|;
      PlacesFromStep(u, i);
      DivBelow(x, n, PlacesFrom(u, i + 1));
      [(u[i].name, u[i].values[x % n])] + DigitsFrom(u, x / n, i + 1)
  }

  /** idToCard: the card whose attribute values are the digits of `id`, carrying `id` as its ID. */
  function IdToCard(u: AttributeSet, id: int): (c: Card)
    requires 0 <= id < NumPossibleCards(u)
    ensures c.id == id && Conforms(u, c)
  {
    Card(DigitsFrom(u, id, 0), id)
  }

  // ----- the bijection -----

  lemma AttributeOfConforming(u: AttributeSet, c: Card, j: int)
    requires NoDup(Names(u)) && Conforms(u, c) && 0 <= j < |u|
    ensures Attribute(c, u[j].name) == Some(c.attrs[j].1)
  {
    forall k | 0 <= k < j ensures c.attrs[k].0 != u[j].name {
      assert Names(u)[k] == u[k].name && Names(u)[j] == u[j].name;
    }
  }

  lemma {:induction false} IdFromInRange(u: AttributeSet, c: Card, i: nat)
    requires NoDup(Names(u)) && Conforms(u, c) && i <= |u|
    ensures 0 <= IdFrom(u, c, i) < PlacesFrom(u, i)
    decreases |u| - i, 1
  {
    if i < |u| {
      IdFromInRangeStep(u, c, i);
    }
  }

  /** The digits from i on lie in range because those from i+1 on do. */
  lemma {:induction false} IdFromInRangeStep(u: AttributeSet, c: Card, i: nat)
    requires NoDup(Names(u)) && Conforms(u, c) && i < |u|
    ensures 0 <= IdFrom(u, c, i) < PlacesFrom(u, i)
    decreases |u| - i, 0
  {
    IdFromInRange(u, c, i + 1);
    var d := IdFromStep(u, c, i);
    PlacesFromStep(u, i);
    DigitBound(IdFrom(u, c, i), PlacesFrom(u, i), d, |u[i].values|, IdFrom(u, c, i + 1), PlacesFrom(u, i + 1));
  }

  /** Attribute i contributes the index of the card's value as the lowest digit. */
  lemma IdFromStep(u: AttributeSet, c: Card, i: nat) returns (d: int)
    requires NoDup(Names(u)) && Conforms(u, c) && i < |u|
    ensures 0 <= d < |u[i].values| && u[i].values[d] == c.attrs[i].1
    ensures IdFrom(u, c, i) == d + |u[i].values| * IdFrom(u, c, i + 1)
  {
    AttributeOfConforming(u, c, i);
    MulIsProduct(|u[i].values|, IdFrom(u, c, i + 1));
    d := IndexOf(u[i].values, c.attrs[i].1);
  }

  lemma {:induction false} IdFromDigits(u: AttributeSet, c: Card, x: nat, i: nat)
    requires ValidAttributeSet(u) && Conforms(u, c) && i <= |u| && x < PlacesFrom(u, i)
    requires c.attrs[i..] == DigitsFrom(u, x, i)
    ensures IdFrom(u, c, i) == x
    decreases |u| - i
  {
    if i < |u| {
      var n := |u[i].values|;
      PlacesFromStep(u, i);
      DivBelow(x, n, PlacesFrom(u, i + 1));
      var d, q := x % n, x / n;
      var ds := DigitsFrom(u, x, i);
      assert ds == [(u[i].name, u[i].values[d])] + DigitsFrom(u, q, i + 1);
      assert c.attrs[i] == ds[0];
      assert c.attrs[i + 1..] == c.attrs[i..][1..] == ds[1..];
      AttributeOfConforming(u, c, i);
      IndexOfNoDup(u[i].values, d);
      IdFromDigits(u, c, q, i + 1);
      MulIsProduct(n, q);
      DivModSplit(x, n);
    }
  }

  lemma {:induction false} DigitsOfIdFrom(u: AttributeSet, c: Card, i: nat)
    requires ValidAttributeSet(u) && Conforms(u, c) && i <= |u|
    ensures 0 <= IdFrom(u, c, i) < PlacesFrom(u, i)
    ensures DigitsFrom(u, IdFrom(u, c, i), i) == c.attrs[i..]
    decreases |u| - i, 1
  {
    IdFromInRange(u, c, i);
    if i < |u| {
      DigitsOfIdFromStep(u, c, i);
    }
  }

  /** Decoding the digits from i on gives the card's pairs from i on, given that it does from i+1 on. */
  lemma {:induction false} DigitsOfIdFromStep(u: AttributeSet, c: Card, i: nat)
    requires ValidAttributeSet(u) && Conforms(u, c) && i < |u|
    requires 0 <= IdFrom(u, c, i) < PlacesFrom(u, i)
    ensures DigitsFrom(u, IdFrom(u, c, i), i) == c.attrs[i..]
    decreases |u| - i, 0
  {
    DigitsOfIdFrom(u, c, i + 1);
    var d := IdFromStep(u, c, i);
    DigitsFromStep(u, c.attrs, IdFrom(u, c, i), i, d, IdFrom(u, c, i + 1));
  }

  /**
    Decoding x = d + radix * rest yields value d for attribute i, then the
    decoding of rest; so if that is the tail of `pairs`, the whole is pairs[i..].
  */
  lemma DigitsFromStep(u: AttributeSet, pairs: seq<(Name, Value)>, x: nat, i: nat, d: int, rest: nat)
    requires i < |u| && i < |pairs| && x < PlacesFrom(u, i) && rest < PlacesFrom(u, i + 1)
    requires 0 <= d < |u[i].values| && x == d + |u[i].values| * rest
    requires pairs[i].0 == u[i].name && pairs[i].1 == u[i].values[d]
    requires DigitsFrom(u, rest, i + 1) == pairs[i + 1..]
    ensures DigitsFrom(u, x, i) == pairs[i..]
  {
    DivModOfDigit(d, |u[i].values|, rest);
    assert DigitsFrom(u, x, i) == [(u[i].name, u[i].values[d])] + DigitsFrom(u, rest, i + 1);
    assert pairs[i..] == [pairs[i]] + pairs[i + 1..];
  }

  /** cardToId of a conforming card lies in [0, numPossibleCards). */
  lemma CardToIdInRange(u: AttributeSet, c: Card)
    requires ValidAttributeSet(u) && Conforms(u, c)
    ensures 0 <= CardToId(u, c) < NumPossibleCards(u)
  {
    IdFromInRange(u, c, 0);
  }

  /** Decoding then encoding an ID gives the ID back, and the decoded card belongs to the universe. */
  lemma CardToIdOfIdToCard(u: AttributeSet, id: int)
    requires ValidAttributeSet(u) && 0 <= id < NumPossibleCards(u)
    ensures CardToId(u, IdToCard(u, id)) == id
    ensures InUniverse(u, IdToCard(u, id))
  {
    var c := IdToCard(u, id);
    assert c.attrs[0..] == c.attrs;
    IdFromDigits(u, c, id, 0);
  }

  /** Encoding then decoding a conforming card gives back its attributes; for a card of the universe, the card itself. */
  lemma IdToCardOfCardToId(u: AttributeSet, c: Card)
    requires ValidAttributeSet(u) && Conforms(u, c)
    ensures 0 <= CardToId(u, c) < NumPossibleCards(u)
    ensures IdToCard(u, CardToId(u, c)).attrs == c.attrs
    ensures InUniverse(u, c) ==> IdToCard(u, CardToId(u, c)) == c
  {
    DigitsOfIdFrom(u, c, 0);
    assert c.attrs[0..] == c.attrs;
  }

  /** Distinct conforming cards get distinct IDs; cards of the universe are determined by their ID. */
  lemma CardToIdInjective(u: AttributeSet, c1: Card, c2: Card)
    requires ValidAttributeSet(u) && Conforms(u, c1) && Conforms(u, c2)
    requires CardToId(u, c1) == CardToId(u, c2)
    ensures c1.attrs == c2.attrs
    ensures InUniverse(u, c1) && InUniverse(u, c2) ==> c1 == c2
  {
    IdToCardOfCardToId(u, c1);
    IdToCardOfCardToId(u, c2);
  }

  /** Every card the universe generates, one per ID. */
  function AllCards(u: AttributeSet): set<Card> {
    set id | 0 <= id < NumPossibleCards(u) :: IdToCard(u, id)
  }

  /**
    numPossibleCards counts the cards of the universe: there are exactly that
    many, and they are exactly the conforming cards carrying their own ID.
  */
  lemma UniverseSize(u: AttributeSet)
    requires ValidAttributeSet(u)
    ensures |AllCards(u)| == NumPossibleCards(u)
    ensures forall c :: c in AllCards(u) <==> InUniverse(u, c)
  {
    var n := NumPossibleCards(u);
    var s := seq(n, id requires 0 <= id < n => IdToCard(u, id));
    forall i, j | 0 <= i < j < n ensures s[i] != s[j] {
      assert s[i].id == i && s[j].id == j;
    }
    assert ToSet(s) == AllCards(u) by {
      forall c | c in AllCards(u) ensures c in ToSet(s) {
        var id :| 0 <= id < n && c == IdToCard(u, id);
        assert s[id] == c;
      }
    }
    SetCardinality(s);
    forall c ensures c in AllCards(u) <==> InUniverse(u, c) {
      if c in AllCards(u) {
        var id :| 0 <= id < n && c == IdToCard(u, id);
        CardToIdOfIdToCard(u, id);
      }
      if InUniverse(u, c) {
        IdToCardOfCardToId(u, c);
      }
    }
  }
}

=== FILE: cards.dfy ===
/**
  A single card of the game: an immutable mapping from attribute names to
  attribute values, together with the integer identifier it was built with.
  The mapping is kept as the list of its (name, value) pairs in key order,
  which is the order a JavaScript object reports its keys in.
*/
module Cards {
  import opened Wrappers
  import opened Sequences

  type Name = string
  type Value = string

  /** A card never changes after construction: it is a value, compared structurally. */
  datatype Card = Card(attrs: seq<(Name, Value)>, id: int)

  /** The value paired with `n` in the first pair named `n`, or absent. */
  function Lookup(attrs: seq<(Name, Value)>, n: Name): (v: Option<Value>)
    ensures v.None? <==> forall i :: 0 <= i < |attrs| ==> attrs[i].0 != n
    ensures forall i :: 0 <= i < |attrs| && attrs[i].0 == n && (forall j :: 0 <= j < i ==> attrs[j].0 != n) ==>
              v == Some(attrs[i].1)
  {
    if |attrs| == 0 then None
    else if attrs[0].0 == n then Some(attrs[0].1)
    else Lookup(attrs[1..], n)
  }

  /** The value of attribute `n`; absent (JavaScript `undefined`) when the card has no such key. */
  function Attribute(c: Card, n: Name): (v: Option<Value>)
    ensures v.None? <==> forall i :: 0 <= i < |c.attrs| ==> c.attrs[i].0 != n
    ensures forall i :: 0 <= i < |c.attrs| && c.attrs[i].0 == n && (forall j :: 0 <= j < i ==> c.attrs[j].0 != n) ==>
              v == Some(c.attrs[i].1)
  {
    Lookup(c.attrs, n)
  }

  /** The card's keys, in key order. */
  function AttributeNames(c: Card): (names: seq<Name>)
    ensures |names| == |c.attrs|
    ensures forall n :: n in names <==> Attribute(c, n).Some?
  {
    var names := seq(|c.attrs|, i requires 0 <= i < |c.attrs| => c.attrs[i].0);
    assert forall n :: n in names <==> exists i :: 0 <= i < |c.attrs| && c.attrs[i].0 == n by {
      forall n | n in names ensures exists i :: 0 <= i < |c.attrs| && c.attrs[i].0 == n {
        var i :| 0 <= i < |names| && names[i] == n;
      }
      forall n | (exists i :: 0 <= i < |c.attrs| && c.attrs[i].0 == n) ensures n in names {
        var i :| 0 <= i < |c.attrs| && c.attrs[i].0 == n;
        assert names[i] == n;
      }
    }
    names
  }

  /** A card whose keys are pairwise distinct, as the keys of a JavaScript object always are. */
  predicate DistinctNames(c: Card) {
    NoDup(AttributeNames(c))
  }

  /**
    The constructor: the card holds the given mapping and ID. Each key reads
    back the value stored under it, and no other key reads a value.
  */
  function NewCard(attrs: seq<(Name, Value)>, id: int): (c: Card)
    ensures c.id == id && AttributeNames(c) == seq(|attrs|, i requires 0 <= i < |attrs| => attrs[i].0)
    ensures forall n :: Attribute(c, n).Some? <==> exists i :: 0 <= i < |attrs| && attrs[i].0 == n
    ensures DistinctNames(c) ==> forall i :: 0 <= i < |attrs| ==> Attribute(c, attrs[i].0) == Some(attrs[i].1)
  {
    var c := Card(attrs, id);
    assert DistinctNames(c) ==> forall i :: 0 <= i < |attrs| ==> Attribute(c, attrs[i].0) == Some(attrs[i].1) by {
      if DistinctNames(c) {
        forall i | 0 <= i < |attrs| ensures Attribute(c, attrs[i].0) == Some(attrs[i].1) {
          AttributeOfStoredPair(c, i);
        }
      }
    }
    c
  }

  /** With distinct keys, reading a key returns exactly the value stored under it. */
  lemma AttributeOfStoredPair(c: Card, i: int)
    requires DistinctNames(c) && 0 <= i < |c.attrs|
    ensures Attribute(c, c.attrs[i].0) == Some(c.attrs[i].1)
  {
    var names := AttributeNames(c);
    forall j | 0 <= j < i ensures c.attrs[j].0 != c.attrs[i].0 {
      assert names[j] == c.attrs[j].0 && names[i] == c.attrs[i].0;
    }
  }
}

=== FILE: combinations.dfy ===
/**
  The k-combinations of positions lo, lo+1, ..., n-1, listed in the order in
  which possibleSets visits them: strictly increasing index tuples, in
  lexicographically ascending order.
*/
module Combinations {
  import opened Sequences

  /** A strictly increasing tuple of k indices drawn from [lo, n). */
  predicate IsCombination(t: seq<int>, lo: int, n: int, k: int) {
    && |t| == k
    && (forall i, j :: 0 <= i < j < |t| ==> t[i] < t[j])
    && (forall i :: 0 <= i < |t| ==> lo <= t[i] < n)
  }

  /** Strict lexicographic order on tuples. */
  predicate LexLess(a: seq<int>, b: seq<int>) {
    |a| > 0 && |b| > 0 && (a[0] < b[0] || (a[0] == b[0] && LexLess(a[1..], b[1..])))
  }

  /** Every pair of tuples appears in strictly ascending lexicographic order. */
  predicate LexSorted(ts: seq<seq<int>>) {
    forall i, j :: 0 <= i < j < |ts| ==> LexLess(ts[i], ts[j])
  }

  function Prepend(x: int, ts: seq<seq<int>>): (r: seq<seq<int>>)
    ensures |r| == |ts| && forall i :: 0 <= i < |ts| ==> r[i] == [x] + ts[i]
  {
    seq(|ts|, i requires 0 <= i < |ts| => [x] + ts[i])
  }

  /**
    All k-combinations of [lo, n): those that start with lo, then those that
    start later; each group recursively in the same order.
  */
  function Combos(lo: nat, n: nat, k: nat): (r: seq<seq<int>>)
    ensures forall t :: t in r ==> IsCombination(t, lo, n, k)
    decreases n - lo
  {
    if k == 0 then [[]]
    else if lo >= n then []
    else
      var first := Combos(lo + 1, n, k - 1);
      var later := Combos(lo + 1, n, k);
      assert forall t :: t in Prepend(lo, first) ==> IsCombination(t, lo, n, k) by {
        forall t | t in Prepend(lo, first) ensures IsCombination(t, lo, n, k) {
          var i :| 0 <= i < |first| && Prepend(lo, first)[i] == t;
          assert t == [lo] + first[i];
          assert IsCombination(first[i], lo + 1, n, k - 1);
        }
      }
      Prepend(lo, first) + later
  }

  /** Every k-combination of [lo, n) is listed. */
  lemma {:induction false} CombosComplete(lo: nat, n: nat, k: nat, t: seq<int>)
    requires IsCombination(t, lo, n, k)
    ensures t in Combos(lo, n, k)
    decreases n - lo
  {
    if k == 0 {
      assert t == [];
    } else {
      assert lo <= t[0] < n;
      if t[0] == lo {
        var tail := t[1..];
        TailCombination(t, lo, n, k);
        CombosComplete(lo + 1, n, k - 1, tail);
        var first := Combos(lo + 1, n, k - 1);
        var i :| 0 <= i < |first| && first[i] == tail;
        assert t == [lo] + tail == Prepend(lo, first)[i];
      } else {
        LaterCombination(t, lo, n, k);
        CombosComplete(lo + 1, n, k, t);
      }
    }
  }

  /** Without its first index lo, a combination of [lo, n) is a shorter one of [lo+1, n). */
  lemma TailCombination(t: seq<int>, lo: int, n: int, k: int)
    requires IsCombination(t, lo, n, k) && k > 0 && t[0] == lo
    ensures IsCombination(t[1..], lo + 1, n, k - 1)
  {
    var tail := t[1..];
    forall i | 0 <= i < |tail| ensures lo + 1 <= tail[i] < n {
      assert tail[i] == t[i + 1] && t[0] < t[i + 1];
    }
    forall i, j | 0 <= i < j < |tail| ensures tail[i] < tail[j] {
      assert tail[i] == t[i + 1] && tail[j] == t[j + 1];
    }
  }

  /** A combination of [lo, n) that does not start at lo is one of [lo+1, n). */
  lemma LaterCombination(t: seq<int>, lo: int, n: int, k: int)
    requires IsCombination(t, lo, n, k) && k > 0 && t[0] != lo
    ensures IsCombination(t, lo + 1, n, k)
  {
    forall i | 0 <= i < |t| ensures lo + 1 <= t[i] {
      if i > 0 { assert t[0] < t[i]; }
    }
  }

  lemma {:induction false} LexLessPrepend(x: int, a: seq<int>, b: seq<int>)
    requires LexLess(a, b)
    ensures LexLess([x] + a, [x] + b)
  {
    assert ([x] + a)[1..] == a && ([x] + b)[1..] == b;
  }

  /** The combinations are listed in strictly ascending lexicographic order. */
  lemma {:induction false} CombosSorted(lo: nat, n: nat, k: nat)
    ensures LexSorted(Combos(lo, n, k))
    decreases n - lo
  {
    if k > 0 && lo < n {
      var first := Combos(lo + 1, n, k - 1);
      var later := Combos(lo + 1, n, k);
      CombosSorted(lo + 1, n, k - 1);
      CombosSorted(lo + 1, n, k);
      var p := Prepend(lo, first);
      var r := p + later;
      assert r == Combos(lo, n, k);
      forall i, j | 0 <= i < j < |r| ensures LexLess(r[i], r[j]) {
        if j < |p| {
          LexLessPrepend(lo, first[i], first[j]);
        } else if i < |p| {
          var b := later[j - |p|];
          assert b in later;
          assert IsCombination(b, lo + 1, n, k);
          assert r[i] == [lo] + first[i];
          assert r[j] == b && b[0] > lo;
        } else {
          assert r[i] == later[i - |p|] && r[j] == later[j - |p|];
        }
      }
    }
  }

  /** No tuple is lexicographically below itself, so a sorted listing has no repeats. */
  lemma {:induction false} LexLessIrreflexive(a: seq<int>)
    ensures !LexLess(a, a)
    decreases |a|
  {
    if |a| > 0 {
      LexLessIrreflexive(a[1..]);
    }
  }

  lemma LexSortedNoDup(ts: seq<seq<int>>)
    requires LexSorted(ts)
    ensures NoDup(ts)
  {
    forall i, j | 0 <= i < j < |ts| ensures ts[i] != ts[j] {
      LexLessIrreflexive(ts[i]);
    }
  }

  /** Binomial coefficient by Pascal's rule. */
  function Choose(m: nat, k: nat): nat {
    if k == 0 then 1
    else if m == 0 then 0
    else Choose(m - 1, k - 1) + Choose(m - 1, k)
  }

  /** There are exactly C(n - lo, k) combinations. */
  lemma {:induction false} CombosCount(lo: nat, n: nat, k: nat)
    requires lo <= n
    ensures |Combos(lo, n, k)| == Choose(n - lo, k)
    decreases n - lo
  {
    if k > 0 && lo < n {
      CombosCount(lo + 1, n, k - 1);
      CombosCount(lo + 1, n, k);
    }
  }

  /** When more indices are asked for than exist, there are none. */
  lemma {:induction false} CombosTooMany(lo: nat, n: nat, k: nat)
    requires 0 < k && n < lo + k
    ensures Combos(lo, n, k) == []
    decreases n - lo
  {
    if lo < n {
      CombosTooMany(lo + 1, n, k - 1);
      CombosTooMany(lo + 1, n, k);
    }
  }
}

=== FILE: deck.dfy ===
/**
  An ordered group of distinct cards sharing one attribute universe, with
  position 0 as the "top", and the operations the game performs on it.
*/
module Decks {
  import opened Wrappers
  import opened Sequences
  import opened Cards
  import opened CardIds
  import opened Combinations
  import SetRule

  datatype Deck = Deck(attributeSet: AttributeSet, cards: seq<Card>)

  /** The representation invariant: a valid universe, only cards of it, none twice. */
  predicate Valid(d: Deck) {
    && ValidAttributeSet(d.attributeSet)
    && NoDup(d.cards)
    && forall c :: c in d.cards ==> InUniverse(d.attributeSet, c)
  }

  /** A deck on the universe with no cards. */
  function Empty(u: AttributeSet): (d: Deck)
    ensures d.attributeSet == u && |d.cards| == 0
  {
    Deck(u, [])
  }

  // ----- kernel operations -----

  /** addCard: insert the card at `pos` from the top unless it is already present. */
  function AddCard(d: Deck, c: Card, pos: int): (r: Deck)
    requires 0 <= pos <= |d.cards|
    ensures r.attributeSet == d.attributeSet
    ensures c in d.cards ==> r == d
    ensures c !in d.cards ==> r.cards == d.cards[..pos] + [c] + d.cards[pos..]
    ensures forall x :: x in r.cards <==> x in d.cards || x == c
    ensures NoDup(d.cards) ==> NoDup(r.cards)
  {
    if c in d.cards then d
    else
      var s := d.cards[..pos] + [c] + d.cards[pos..];
      assert d.cards == d.cards[..pos] + d.cards[pos..];
      assert forall x :: x in s <==> x in d.cards || x == c;
      if NoDup(d.cards) then InsertNoDup(d.cards, pos, c); d.(cards := s) else d.(cards := s)
  }

  /**
    removeCard: delete the first occurrence of the card, if any; the rest keep their order.
    For a duplicate-free deck the order is pinned down by RemoveThenAdd: putting the card
    back at its old index restores the deck exactly.
  */
  function RemoveCard(d: Deck, c: Card): (r: Deck)
    ensures r.attributeSet == d.attributeSet
    ensures c !in d.cards ==> r == d
    ensures c in d.cards ==> |r.cards| == |d.cards| - 1
    ensures multiset(r.cards) == multiset(d.cards) - multiset{c}
    ensures forall x :: x in r.cards ==> x in d.cards
    ensures NoDup(d.cards) ==> NoDup(r.cards) && forall x :: x in r.cards <==> x in d.cards && x != c
  {
    if c !in d.cards then d
    else
      var i := IndexOf(d.cards, c);
      var s := d.cards[..i] + d.cards[i + 1..];
      assert d.cards == d.cards[..i] + [c] + d.cards[i + 1..];
      assert forall x :: x in s ==> x in d.cards;
      if NoDup(d.cards) then RemoveAtNoDup(d.cards, i); d.(cards := s) else d.(cards := s)
  }

  /** Adding an absent card and then removing it restores the deck. */
  lemma AddThenRemove(d: Deck, c: Card, pos: int)
    requires 0 <= pos <= |d.cards| && c !in d.cards
    ensures RemoveCard(AddCard(d, c, pos), c) == d
  {
    InsertThenCut(d.cards, pos, c);
  }

  /** Removing a card and putting it back where it was restores a duplicate-free deck. */
  lemma RemoveThenAdd(d: Deck, c: Card)
    requires NoDup(d.cards) && c in d.cards
    ensures 0 <= IndexOf(d.cards, c) <= |RemoveCard(d, c).cards|
    ensures AddCard(RemoveCard(d, c), c, IndexOf(d.cards, c)) == d
  {
    var i := IndexOf(d.cards, c);
    var r := RemoveCard(d, c);
    assert r.cards == d.cards[..i] + d.cards[i + 1..];
    assert c !in r.cards;
    InsertAtSplit(d.cards, i);
  }

  /** findByPos: the card at `pos` from the top, absent past the bottom. */
  function FindByPos(d: Deck, pos: int): (r: Option<Card>)
    requires 0 <= pos
    ensures r.Some? <==> pos < |d.cards|
    ensures r.Some? ==> r.value == d.cards[pos] && r.value in d.cards
  {
    if pos < |d.cards| then Some(d.cards[pos]) else None
  }

  /** size: the number of cards. */
  function Size(d: Deck): (n: nat)
    ensures n == |d.cards|
    ensures n == 0 <==> forall c :: c !in d.cards
  {
    if |d.cards| > 0 then assert d.cards[0] in d.cards; |d.cards| else 0
  }

  // ----- secondary operations -----

  /** hasCard: membership. */
  function HasCard(d: Deck, c: Card): (b: bool)
    ensures b <==> 0 <= IndexOf(d.cards, c)
    ensures b ==> exists i :: 0 <= i < |d.cards| && d.cards[i] == c
  {
    c in d.cards
  }

  /** addToTop: the card becomes the new top unless already present. */
  function AddToTop(d: Deck, c: Card): (r: Deck)
    ensures c !in d.cards ==> r == d.(cards := [c] + d.cards)
    ensures c in d.cards ==> r == d
    ensures NoDup(d.cards) ==> NoDup(r.cards)
    ensures forall x :: x in r.cards <==> x in d.cards || x == c
  {
    AddCard(d, c, 0)
  }

  /** addToBottom, as its contract states it: the card goes after the last one unless already present. */
  function AddToBottom(d: Deck, c: Card): (r: Deck)
    ensures c !in d.cards ==> r == d.(cards := d.cards + [c])
    ensures c in d.cards ==> r == d
    ensures NoDup(d.cards) ==> NoDup(r.cards)
    ensures forall x :: x in r.cards <==> x in d.cards || x == c
  {
    var r := AddCard(d, c, |d.cards|);
    assert c !in d.cards ==> r.cards == d.cards + [c] by {
      if c !in d.cards {
        assert r.cards[..|d.cards|] == d.cards;
      }
    }
    r
  }

  /** The start index `Array.prototype.splice` uses for a requested start on an array of length `len`. */
  function SpliceStart(len: nat, start: int): (i: nat)
    ensures i <= len
  {
    if start < 0 then (if len + start < 0 then 0 else len + start)
    else if start > len then len
    else start
  }

  /** addToBottom as the source writes it: `splice(size() - 1, 0, card)`, which lands before the last card. */
  function AddToBottomAsWritten(d: Deck, c: Card): (r: Deck)
    ensures c in d.cards ==> r == d
    ensures c !in d.cards && |d.cards| == 0 ==> r.cards == [c]
  {
    if c in d.cards then d
    else
      var pos := SpliceStart(|d.cards|, |d.cards| - 1);
      d.(cards := d.cards[..pos] + [c] + d.cards[pos..])
  }

  /** On a non-empty deck the as-written addToBottom leaves the old bottom card last, so it does not append. */
  lemma AddToBottomAsWrittenMisplaces(d: Deck, c: Card)
    requires |d.cards| > 0 && c !in d.cards
    ensures AddToBottomAsWritten(d, c).cards[|d.cards|] == d.cards[|d.cards| - 1]
    ensures AddToBottomAsWritten(d, c).cards[|d.cards| - 1] == c
    ensures AddToBottomAsWritten(d, c) != AddToBottom(d, c)
  {
    var r := AddToBottomAsWritten(d, c);
    var n := |d.cards|;
    assert r.cards == d.cards[..n - 1] + [c] + d.cards[n - 1..];
    assert r.cards[n] == d.cards[n - 1];
    assert AddToBottom(d, c).cards[n] == c;
    assert d.cards[n - 1] in d.cards;
  }

  /** removeTop: take the top card off; on an empty deck, absent and no change. */
  function RemoveTop(d: Deck): (r: (Option<Card>, Deck))
    ensures |d.cards| == 0 ==> r == (None, d)
    ensures |d.cards| > 0 ==> r.0 == Some(d.cards[0]) && r.1 == d.(cards := d.cards[1..])
  {
    match FindByPos(d, 0)
    case None => (None, d)
    case Some(top) =>
      assert IndexOf(d.cards, top) == 0;
      (Some(top), RemoveCard(d, top))
  }

  /** Putting the removed top card back on top restores a duplicate-free deck. */
  lemma RemoveTopThenAddToTop(d: Deck)
    requires |d.cards| > 0 && NoDup(d.cards)
    ensures AddToTop(RemoveTop(d).1, RemoveTop(d).0.value) == d
  {
    var rest := d.cards[1..];
    forall j | 0 <= j < |rest| ensures rest[j] != d.cards[0] {
      assert rest[j] == d.cards[j + 1];
    }
    assert [d.cards[0]] + rest == d.cards;
  }

  /** clear: remove the top card until none is left. */
  function Clear(d: Deck): (r: Deck)
    ensures r.attributeSet == d.attributeSet && r.cards == []
    decreases |d.cards|
  {
    if |d.cards| == 0 then d else Clear(RemoveTop(d).1)
  }

  // ----- generation -----

  /** The loop of generate after its first n iterations: card i was added at the top in iteration i. */
  function GenerateUpTo(d: Deck, n: nat): (r: Deck)
    requires n <= NumPossibleCards(d.attributeSet)
    ensures r.attributeSet == d.attributeSet
    ensures NoDup(d.cards) ==> NoDup(r.cards)
  {
    if n == 0 then d else AddToTop(GenerateUpTo(d, n - 1), IdToCard(d.attributeSet, n - 1))
  }

  /** The cards of IDs n-1 down to 0, in that order. */
  function Descending(u: AttributeSet, n: nat): (r: seq<Card>)
    requires n <= NumPossibleCards(u)
    ensures |r| == n && forall j :: 0 <= j < n ==> r[j].id == n - 1 - j
  {
    if n == 0 then [] else [IdToCard(u, n - 1)] + Descending(u, n - 1)
  }

  /** Position j of the descending list holds the card of ID n-1-j. */
  lemma {:induction false} DescendingAt(u: AttributeSet, n: nat, j: nat)
    requires n <= NumPossibleCards(u) && j < n
    ensures Descending(u, n)[j] == IdToCard(u, n - 1 - j)
  {
    if j > 0 {
      DescendingAt(u, n - 1, j - 1);
    }
  }

  /** After n iterations the deck holds its old cards and the cards of IDs below n, and nothing else. */
  lemma GenerateUpToMembers(d: Deck, n: nat)
    requires n <= NumPossibleCards(d.attributeSet)
    ensures forall x :: x in GenerateUpTo(d, n).cards <==> x in d.cards || x in Descending(d.attributeSet, n)
  {
    forall x ensures x in GenerateUpTo(d, n).cards <==> x in d.cards || x in Descending(d.attributeSet, n) {
      GenerateUpToMember(d, n, x);
    }
  }

  /** The same, for one card at a time: by induction on the number of iterations. */
  lemma {:induction false} GenerateUpToMember(d: Deck, n: nat, x: Card)
    requires n <= NumPossibleCards(d.attributeSet)
    ensures x in GenerateUpTo(d, n).cards <==> x in d.cards || x in Descending(d.attributeSet, n)
  {
    if n > 0 {
      GenerateUpToMember(d, n - 1, x);
      AddToTopMember(GenerateUpTo(d, n - 1), IdToCard(d.attributeSet, n - 1), d.cards, Descending(d.attributeSet, n - 1), x);
    }
  }

  /** Adding c at the top adds c to whatever the deck was known to hold. */
  lemma AddToTopMember(d: Deck, c: Card, base: seq<Card>, added: seq<Card>, x: Card)
    requires x in d.cards <==> x in base || x in added
    ensures x in AddToTop(d, c).cards <==> x in base || x in [c] + added
  {
  }

  /** generate: add the card of every ID 0 .. numPossibleCards - 1 at the top, skipping cards already present. */
  function Generate(d: Deck): (r: Deck)
    ensures r.attributeSet == d.attributeSet
    ensures forall x :: x in d.cards ==> x in r.cards
    ensures forall id :: 0 <= id < NumPossibleCards(d.attributeSet) ==> IdToCard(d.attributeSet, id) in r.cards
    ensures NoDup(d.cards) ==> NoDup(r.cards)
  {
    var n := NumPossibleCards(d.attributeSet);
    GenerateUpToMembers(d, n);
    assert forall id :: 0 <= id < n ==> IdToCard(d.attributeSet, id) in Descending(d.attributeSet, n) by {
      forall id | 0 <= id < n ensures IdToCard(d.attributeSet, id) in Descending(d.attributeSet, n) {
        DescendingAt(d.attributeSet, n, n - 1 - id);
      }
    }
    GenerateUpTo(d, n)
  }

  /** From an empty deck the n-iteration prefix lists the cards of IDs n-1 down to 0 from the top. */
  lemma {:induction false} GenerateUpToFromEmpty(u: AttributeSet, n: nat)
    requires n <= NumPossibleCards(u)
    ensures GenerateUpTo(Empty(u), n).cards == Descending(u, n)
  {
    if n > 0 {
      GenerateUpToFromEmpty(u, n - 1);
      var prev := Descending(u, n - 1);
      var c := IdToCard(u, n - 1);
      forall j | 0 <= j < |prev| ensures prev[j] != c {
        assert prev[j].id == n - 2 - j;
      }
    }
  }

  /**
    generate on an empty deck yields a valid deck listing every card of the
    universe once, from the top in descending ID order.
  */
  lemma GenerateFromEmpty(u: AttributeSet)
    requires ValidAttributeSet(u)
    ensures Valid(Generate(Empty(u)))
    ensures Generate(Empty(u)).cards == Descending(u, NumPossibleCards(u))
  {
    GenerateUpToFromEmpty(u, NumPossibleCards(u));
    GenerateValid(Empty(u));
  }

  /** Distinct cards of a universe have distinct IDs. */
  lemma CardToIdSeparates(u: AttributeSet, c1: Card, c2: Card)
    requires ValidAttributeSet(u) && InUniverse(u, c1) && InUniverse(u, c2)
    ensures c1 != c2 ==> CardToId(u, c1) != CardToId(u, c2)
  {
    if CardToId(u, c1) == CardToId(u, c2) {
      CardToIdInjective(u, c1, c2);
    }
  }

  /** A duplicate-free list holding exactly the cards of a universe has numPossibleCards entries. */
  lemma UniverseListSize(u: AttributeSet, cards: seq<Card>)
    requires ValidAttributeSet(u) && NoDup(cards)
    requires forall c :: c in cards <==> InUniverse(u, c)
    ensures |cards| == NumPossibleCards(u)
  {
    var n := NumPossibleCards(u);
    var ids := seq(|cards|, i requires 0 <= i < |cards| => CardToId(u, cards[i]));
    forall i | 0 <= i < |ids| ensures 0 <= ids[i] < n {
      assert cards[i] in cards;
      CardToIdInRange(u, cards[i]);
    }
    forall i, j | 0 <= i < j < |ids| ensures ids[i] != ids[j] {
      assert cards[i] in cards && cards[j] in cards;
      CardToIdSeparates(u, cards[i], cards[j]);
    }
    forall id | 0 <= id < n ensures id in ids {
      CardToIdOfIdToCard(u, id);
      var i :| 0 <= i < |cards| && cards[i] == IdToCard(u, id);
      assert ids[i] == id;
    }
    PermutationOfRange(ids, n);
  }

  /** generate on a valid deck adds only cards of the universe. */
  lemma GenerateSound(d: Deck)
    requires Valid(d)
    ensures forall c :: c in Generate(d).cards ==> InUniverse(d.attributeSet, c)
  {
    var u := d.attributeSet;
    var n := NumPossibleCards(u);
    var r := Generate(d);
    GenerateUpToMembers(d, n);
    assert r == GenerateUpTo(d, n);
    forall c | c in r.cards ensures InUniverse(u, c) {
      if c !in d.cards {
        DescendingMember(u, n, c);
        CardToIdOfIdToCard(u, c.id);
      }
    }
  }

  /** A card is in the descending list of n exactly when it is the card of its own ID and that ID is below n. */
  lemma {:induction false} DescendingMember(u: AttributeSet, n: nat, x: Card)
    requires n <= NumPossibleCards(u)
    ensures x in Descending(u, n) <==> 0 <= x.id < n && x == IdToCard(u, x.id)
  {
    if n > 0 {
      DescendingMember(u, n - 1, x);
    }
  }

  /** generate leaves every card of the universe in the deck. */
  lemma GenerateComplete(d: Deck)
    requires ValidAttributeSet(d.attributeSet)
    ensures forall c :: InUniverse(d.attributeSet, c) ==> c in Generate(d).cards
  {
    var u := d.attributeSet;
    var n := NumPossibleCards(u);
    var r := Generate(d);
    forall c | InUniverse(u, c) ensures c in r.cards {
      IdToCardOfCardToId(u, c);
      assert IdToCard(u, CardToId(u, c)) in r.cards;
    }
  }

  /**
    generate on a valid deck yields a valid deck holding exactly the cards of
    the universe, numPossibleCards of them.
  */
  lemma GenerateValid(d: Deck)
    requires Valid(d)
    ensures Valid(Generate(d))
    ensures forall c :: c in Generate(d).cards <==> InUniverse(d.attributeSet, c)
    ensures |Generate(d).cards| == NumPossibleCards(d.attributeSet)
  {
    GenerateSound(d);
    GenerateComplete(d);
    UniverseListSize(d.attributeSet, Generate(d).cards);
  }

  /** Adding a card of the universe keeps a deck valid: no add operation introduces a duplicate. */
  lemma AddingKeepsValid(d: Deck, c: Card, pos: int)
    requires Valid(d) && InUniverse(d.attributeSet, c) && 0 <= pos <= |d.cards|
    ensures Valid(AddCard(d, c, pos))
    ensures Valid(AddToTop(d, c)) && Valid(AddToBottom(d, c))
  {
  }

  /** Removing cards keeps a deck valid. */
  lemma RemovingKeepsValid(d: Deck, c: Card)
    requires Valid(d)
    ensures Valid(RemoveCard(d, c)) && Valid(RemoveTop(d).1) && Valid(Clear(d))
  {
    if |d.cards| > 0 {
      assert RemoveTop(d).1 == RemoveCard(d, d.cards[0]) by {
        assert IndexOf(d.cards, d.cards[0]) == 0;
      }
    }
  }

  // ----- identifiers -----

  /** getId: the card's ID in this deck's universe, whether or not the card is in the deck; decoding it gives the card back. */
  function GetId(d: Deck, c: Card): (id: int)
    requires ValidAttributeSet(d.attributeSet) && Conforms(d.attributeSet, c)
    ensures 0 <= id < NumPossibleCards(d.attributeSet)
    ensures IdToCard(d.attributeSet, id).attrs == c.attrs
    ensures InUniverse(d.attributeSet, c) ==> IdToCard(d.attributeSet, id) == c
  {
    IdToCardOfCardToId(d.attributeSet, c);
    CardToId(d.attributeSet, c)
  }

  /** findById, as documented: the topmost card of the deck whose ID is `id`, or absent. */
  function FindById(d: Deck, id: int): (r: Option<Card>)
    ensures r.Some? ==> r.value in d.cards && CardToId(d.attributeSet, r.value) == id
    ensures r.None? ==> forall c :: c in d.cards ==> CardToId(d.attributeSet, c) != id
    decreases |d.cards|
  {
    if |d.cards| == 0 then None
    else if CardToId(d.attributeSet, d.cards[0]) == id then Some(d.cards[0])
    else
      var rest := FindById(d.(cards := d.cards[1..]), id);
      assert forall c :: c in d.cards ==> c == d.cards[0] || c in d.cards[1..];
      rest
  }

  /** The ID-to-card map of a card list, filled front to back, a later card overwriting an earlier one of the same ID. */
  function CardIdMapOf(u: AttributeSet, cards: seq<Card>): (m: map<int, Card>)
    ensures forall c :: c in cards ==> CardToId(u, c) in m
    ensures forall id :: id in m ==> m[id] in cards && CardToId(u, m[id]) == id
    decreases |cards|
  {
    if |cards| == 0 then map[]
    else
      var init, last := cards[..|cards| - 1], cards[|cards| - 1];
      assert cards == init + [last];
      CardIdMapOf(u, init)[CardToId(u, last) := last]
  }

  /** A card of the universe missing from a list has an ID the list's map does not hold. */
  lemma CardIdMapOfFresh(u: AttributeSet, cards: seq<Card>, c: Card)
    requires ValidAttributeSet(u) && InUniverse(u, c) && c !in cards
    requires forall x :: x in cards ==> InUniverse(u, x)
    ensures CardToId(u, c) !in CardIdMapOf(u, cards)
  {
    var m := CardIdMapOf(u, cards);
    if CardToId(u, c) in m {
      var x := m[CardToId(u, c)];
      CardToIdSeparates(u, x, c);
    }
  }

  /** Over distinct cards of the universe no ID is written twice, so there is one entry per card. */
  lemma {:induction false} CardIdMapOfSize(u: AttributeSet, cards: seq<Card>)
    requires ValidAttributeSet(u) && NoDup(cards) && forall c :: c in cards ==> InUniverse(u, c)
    ensures |CardIdMapOf(u, cards)| == |cards|
    decreases |cards|
  {
    if |cards| > 0 {
      var init, last := cards[..|cards| - 1], cards[|cards| - 1];
      assert cards == init + [last];
      assert NoDup(init) by {
        forall i, j | 0 <= i < j < |init| ensures init[i] != init[j] {
          assert init[i] == cards[i] && init[j] == cards[j];
        }
      }
      assert last !in init by {
        forall i | 0 <= i < |init| ensures init[i] != last {
          assert init[i] == cards[i];
        }
      }
      CardIdMapOfSize(u, init);
      CardIdMapOfFresh(u, init, last);
      var m := CardIdMapOf(u, init);
      var k := CardToId(u, last);
      assert m[k := last].Keys == m.Keys + {k};
    }
  }

  /** Over cards of the universe, the entry under each ID is the card of that ID. */
  lemma CardIdMapOfEntries(u: AttributeSet, cards: seq<Card>)
    requires ValidAttributeSet(u) && forall c :: c in cards ==> InUniverse(u, c)
    ensures forall id :: id in CardIdMapOf(u, cards) ==>
              0 <= id < NumPossibleCards(u) && CardIdMapOf(u, cards)[id] == IdToCard(u, id)
  {
    var m := CardIdMapOf(u, cards);
    forall id | id in m ensures 0 <= id < NumPossibleCards(u) && m[id] == IdToCard(u, id) {
      IdToCardOfCardToId(u, m[id]);
    }
  }

  /**
    cardIdMap: every card of the deck keyed by its ID. On a valid deck there
    is one entry per card and the entry under an ID is the card of that ID.
  */
  function CardIdMap(d: Deck): (m: map<int, Card>)
    ensures forall c :: c in d.cards ==> CardToId(d.attributeSet, c) in m
    ensures forall id :: id in m ==> m[id] in d.cards && CardToId(d.attributeSet, m[id]) == id
    ensures Valid(d) ==> |m| == |d.cards|
    ensures Valid(d) ==> forall id :: id in m ==> 0 <= id < NumPossibleCards(d.attributeSet) && m[id] == IdToCard(d.attributeSet, id)
  {
    var u := d.attributeSet;
    var m := CardIdMapOf(u, d.cards);
    assert Valid(d) ==> |m| == |d.cards| by {
      if Valid(d) {
        CardIdMapOfSize(u, d.cards);
      }
    }
    assert Valid(d) ==> forall id :: id in m ==> 0 <= id < NumPossibleCards(u) && m[id] == IdToCard(u, id) by {
      if Valid(d) {
        CardIdMapOfEntries(u, d.cards);
      }
    }
    m
  }

  // ----- set queries -----

  /** possibleSets: each set among the deck's cards, re-wrapped as a deck on the same universe. */
  function PossibleSets(d: Deck, k: nat): (r: seq<Deck>)
    ensures |r| == |SetRule.PossibleSets(d.cards, k)|
    ensures forall i :: 0 <= i < |r| ==> r[i] == Deck(d.attributeSet, SetRule.PossibleSets(d.cards, k)[i])
    ensures forall s :: s in r ==> SetRule.IsSet(s.cards, k)
    ensures Valid(d) ==> forall s :: s in r ==> Valid(s)
  {
    var sets := SetRule.PossibleSets(d.cards, k);
    var r := seq(|sets|, i requires 0 <= i < |sets| => Deck(d.attributeSet, sets[i]));
    SetsAsDecks(d, k, r);
    r
  }

  /** Each deck of the list wraps one of the sets found, so it is a set, and valid when the deck is. */
  lemma SetsAsDecks(d: Deck, k: nat, r: seq<Deck>)
    requires |r| == |SetRule.PossibleSets(d.cards, k)|
    requires forall i :: 0 <= i < |r| ==> r[i] == Deck(d.attributeSet, SetRule.PossibleSets(d.cards, k)[i])
    ensures forall s :: s in r ==> SetRule.IsSet(s.cards, k)
    ensures Valid(d) ==> forall s :: s in r ==> Valid(s)
  {
    var sets := SetRule.PossibleSets(d.cards, k);
    forall s | s in r ensures SetRule.IsSet(s.cards, k) && (Valid(d) ==> Valid(s)) {
      var i :| 0 <= i < |r| && r[i] == s;
      assert sets[i] in sets;
      if Valid(d) {
        PossibleSetValid(d, k, sets[i]);
      }
    }
  }

  /** A set found among the cards of a valid deck makes a valid deck of its own. */
  lemma PossibleSetValid(d: Deck, k: nat, s: seq<Card>)
    requires Valid(d) && s in SetRule.PossibleSets(d.cards, k)
    ensures Valid(Deck(d.attributeSet, s))
  {
    SetRule.PossibleSetsDistinct(d.cards, k);
    SetRule.PossibleSetsSubset(d.cards, k);
  }

  /** hasSets: some increasing k-tuple of the deck's positions holds a set. */
  function HasSets(d: Deck, k: nat): (b: bool)
    ensures b <==> exists t :: 0 < k && IsCombination(t, 0, |d.cards|, k) && SetRule.IsSet(SetRule.Pick(d.cards, t), k)
  {
    var idx := SetRule.SetIndices(d.cards, k);
    assert |idx| > 0 ==> idx[0] in idx;
    |PossibleSets(d, k)| > 0
  }

  /** isSet: the deck's cards are exactly k cards obeying the rule on every attribute. */
  function IsSet(d: Deck, k: int): (b: bool)
    ensures b <==> |d.cards| == k && SetRule.SetRuleHolds(d.cards)
  {
    SetRule.IsSetIffSetRule(d.cards, k);
    SetRule.IsSet(d.cards, k)
  }

  /** mismatchedAttributes: the top card's attribute names on which the deck's cards break the rule. */
  function MismatchedAttributes(d: Deck): (r: seq<Name>)
    ensures |d.cards| == 0 ==> r == []
    ensures |d.cards| > 0 ==> forall n :: n in r <==>
              n in AttributeNames(d.cards[0]) && !(SetRule.AllSame(d.cards, n) || SetRule.AllDifferent(d.cards, n))
  {
    var r := SetRule.MismatchedAttributes(d.cards);
    assert |d.cards| > 0 ==> forall n :: n in r <==>
              n in AttributeNames(d.cards[0]) && !(SetRule.AllSame(d.cards, n) || SetRule.AllDifferent(d.cards, n)) by {
      if |d.cards| > 0 {
        forall n ensures n in r <==>
              n in AttributeNames(d.cards[0]) && !(SetRule.AllSame(d.cards, n) || SetRule.AllDifferent(d.cards, n)) {
          SetRule.MismatchedIffNeitherSameNorDifferent(d.cards, n);
        }
      }
    }
    r
  }
}

=== FILE: game_invariants.dfy ===
/**
  The game state's invariants are kept by every transition: distinct
  player IDs, a member as active player, disjoint duplicate-free pools of
  universe cards whose sizes add up to the size of the universe, and a
  selection of at most cards-per-set face-up cards.
*/
module GameInvariants {
  import opened Wrappers
  import opened Sequences
  import opened Cards
  import opened CardIds
  import opened Decks
  import opened Players
  import opened Games

  // ----- hand totals -----

  lemma {:induction false} HandTotalAppend(ps: seq<Player>, p: Player)
    ensures HandTotal(ps + [p]) == HandTotal(ps) + |p.hand.cards|
  {
    if |ps| > 0 {
      assert (ps + [p])[1..] == ps[1..] + [p];
      HandTotalAppend(ps[1..], p);
    }
  }

  lemma {:induction false} HandTotalUpdate(ps: seq<Player>, i: int, p: Player)
    requires 0 <= i < |ps|
    ensures HandTotal(ps[i := p]) == HandTotal(ps) - |ps[i].hand.cards| + |p.hand.cards|
  {
    if i > 0 {
      assert ps[i := p][1..] == ps[1..][i - 1 := p];
      HandTotalUpdate(ps[1..], i - 1, p);
    }
  }

  lemma {:induction false} HandTotalRemove(ps: seq<Player>, i: int)
    requires 0 <= i < |ps|
    ensures HandTotal(ps[..i] + ps[i + 1..]) == HandTotal(ps) - |ps[i].hand.cards|
  {
    if i > 0 {
      assert (ps[..i] + ps[i + 1..])[1..] == ps[1..][..i - 1] + ps[1..][i..];
      HandTotalRemove(ps[1..], i - 1);
    } else {
      assert ps[..i] + ps[i + 1..] == ps[1..];
    }
  }

  /** Hands stay valid and apart from the pools when the pools only lose cards or gain face-down ones face up. */
  lemma HandsStayOk(g: Game, g': Game)
    requires forall i :: 0 <= i < |g.players| ==> HandOk(g, g.players[i].hand)
    requires g'.players == g.players && g'.attributeSet == g.attributeSet
    requires forall x :: x in g'.faceUp.cards ==> x in g.faceUp.cards || x in g.faceDown.cards
    requires forall x :: x in g'.faceDown.cards ==> x in g.faceDown.cards
    ensures forall i :: 0 <= i < |g'.players| ==> HandOk(g', g'.players[i].hand)
  {
    forall i | 0 <= i < |g'.players| ensures HandOk(g', g'.players[i].hand) {
      assert HandOk(g, g.players[i].hand);
    }
  }

  // ----- construction and players -----

  /** The constructor establishes the invariants for a valid universe. */
  lemma InitInv(u: AttributeSet, k: nat)
    requires ValidAttributeSet(u)
    ensures Inv(Init(u, k))
  {
    GenerateValid(Empty(u));
  }

  /** addPlayer keeps the invariants: the fresh ID is distinct and the new hand is empty. */
  lemma AddPlayerInv(g: Game, name: string)
    requires Inv(g)
    ensures Inv(AddPlayer(g, name))
  {
    AddPlayerCardsInv(g, name);
    AddPlayerPlayersInv(g, name);
  }

  lemma AddPlayerCardsInv(g: Game, name: string)
    requires CardsInv(g)
    ensures CardsInv(AddPlayer(g, name))
  {
    var r := AddPlayer(g, name);
    var p := r.players[|g.players|];
    assert r.players == g.players + [p];
    HandTotalAppend(g.players, p);
    forall i | 0 <= i < |r.players| ensures HandOk(r, r.players[i].hand) {
      if i < |g.players| {
        assert r.players[i] == g.players[i];
      }
    }
  }

  lemma AddPlayerPlayersInv(g: Game, name: string)
    requires PlayersInv(g)
    ensures PlayersInv(AddPlayer(g, name))
  {
    var r := AddPlayer(g, name);
    var p := r.players[|g.players|];
    assert r.players == g.players + [p];
    assert Ids(r.players) == Ids(g.players) + [p.id];
    forall i, j | 0 <= i < j < |Ids(r.players)| ensures Ids(r.players)[i] != Ids(r.players)[j] {
      if j == |g.players| {
        assert Ids(g.players)[i] == Ids(r.players)[i];
      }
    }
    assert forall id :: IsMember(g.players, id) ==> IsMember(r.players, id);
  }

  /** Cutting one player out of the list keeps the remaining hands pairwise disjoint. */
  lemma RemoveAtKeepsHandsDisjoint(ps: seq<Player>, i: int)
    requires HandsDisjoint(ps) && 0 <= i < |ps|
    ensures HandsDisjoint(ps[..i] + ps[i + 1..])
  {
    var ps' := ps[..i] + ps[i + 1..];
    forall a, b | 0 <= a < |ps'| && 0 <= b < |ps'| && a != b
      ensures Disjoint(ps'[a].hand.cards, ps'[b].hand.cards)
    {
      var a' := if a < i then a else a + 1;
      var b' := if b < i then b else b + 1;
      assert ps'[a] == ps[a'] && ps'[b] == ps[b'];
    }
  }

  /** Removing a player with an empty hand keeps the card invariants: no card leaves the game. */
  lemma RemovePlayerCardsInv(g: Game, id: int)
    requires CardsInv(g) && IsMember(g.players, id)
    requires g.players[PlayerIndex(g.players, id)].hand.cards == []
    ensures CardsInv(RemovePlayer(g, id))
  {
    var i := PlayerIndex(g.players, id);
    assert RemovePlayer(g, id) == g.(players := g.players[..i] + g.players[i + 1..]);
    RemoveAtKeepsCardsInv(g, i);
  }

  /** Cutting out the player at position i, whose hand is empty, keeps the card invariants. */
  lemma RemoveAtKeepsCardsInv(g: Game, i: int)
    requires CardsInv(g) && 0 <= i < |g.players| && g.players[i].hand.cards == []
    ensures CardsInv(g.(players := g.players[..i] + g.players[i + 1..]))
  {
    var ps := g.players;
    var r := g.(players := ps[..i] + ps[i + 1..]);
    HandTotalRemove(ps, i);
    RemoveAtKeepsHandsDisjoint(ps, i);
    forall j | 0 <= j < |r.players| ensures HandOk(r, r.players[j].hand) {
      var j' := if j < i then j else j + 1;
      assert r.players[j] == ps[j'];
      assert HandOk(g, ps[j'].hand);
    }
  }

  /** Removing a player who is not active keeps the player invariants. */
  lemma RemovePlayerPlayersInv(g: Game, id: int)
    requires PlayersInv(g) && g.active != Some(id)
    ensures PlayersInv(RemovePlayer(g, id))
  {
    if IsMember(g.players, id) {
      var i := PlayerIndex(g.players, id);
      var ps := g.players;
      var ps' := RemovePlayer(g, id).players;
      assert ps' == ps[..i] + ps[i + 1..];
      assert Ids(ps') == Ids(ps)[..i] + Ids(ps)[i + 1..];
      RemoveAtNoDup(Ids(ps), i);
      if g.active.Some? {
        assert g.active.value in Ids(ps) && g.active.value != Ids(ps)[i];
      }
    }
  }

  /** removePlayer keeps the invariants for a player with an empty hand who is not the active player. */
  lemma RemovePlayerInv(g: Game, id: int)
    requires Inv(g)
    requires IsMember(g.players, id) ==> g.players[PlayerIndex(g.players, id)].hand.cards == []
    requires g.active != Some(id)
    ensures Inv(RemovePlayer(g, id))
  {
    if IsMember(g.players, id) {
      RemovePlayerCardsInv(g, id);
      RemovePlayerPlayersInv(g, id);
    }
  }

  /** Removing the active player leaves an active ID that is no member's: the active-player invariant breaks. */
  lemma RemoveActivePlayerBreaksInv(g: Game, id: int)
    requires Inv(g) && g.active == Some(id)
    ensures !PlayersInv(RemovePlayer(g, id))
  {
  }

  // ----- pools -----

  /** revealCard keeps the invariants: a card moves from face-down to face-up and the total is unchanged. */
  lemma RevealCardInv(g: Game)
    requires Inv(g)
    ensures Inv(RevealCard(g).1)
  {
    if |g.faceDown.cards| > 0 {
      var r := RevealCard(g).1;
      var c := g.faceDown.cards[0];
      assert c in g.faceDown.cards;
      assert c !in g.faceUp.cards;
      assert r.faceUp.cards == g.faceUp.cards + [c];
      AddingKeepsValid(g.faceUp, c, |g.faceUp.cards|);
      RemovingKeepsValid(g.faceDown, c);
      assert r.faceDown == RemoveTop(g.faceDown).1;
      forall j | 0 <= j < |r.faceDown.cards| ensures r.faceDown.cards[j] != c {
        assert r.faceDown.cards[j] == g.faceDown.cards[j + 1];
      }
      assert forall x :: x in r.faceDown.cards ==> x in g.faceDown.cards;
      HandsStayOk(g, r);
    }
  }

  // ----- set calls and selection -----

  lemma HandleSetCallInv(g: Game, id: int)
    requires Inv(g)
    ensures Inv(HandleSetCall(g, id))
  {
  }

  lemma CallSetInv(g: Game, p: Player)
    requires Inv(g)
    ensures Inv(CallSet(g, p))
  {
    HandleSetCallInv(g, p.id);
  }

  /** selectCard keeps the selection duplicate-free, face-up and within cards-per-set. */
  lemma SelectCardInv(g: Game, c: Card)
    requires Inv(g)
    ensures Inv(SelectCard(g, c))
  {
  }

  lemma DeselectCardInv(g: Game, c: Card)
    requires Inv(g)
    ensures Inv(DeselectCard(g, c))
  {
  }

  lemma ClearSetCallInv(g: Game)
    requires Inv(g)
    ensures Inv(ClearSetCall(g))
  {
  }

  lemma ToggleCardSelectionInv(g: Game, c: Card)
    requires Inv(g)
    ensures Inv(ToggleCardSelection(g, c))
  {
    SelectCardInv(g, c);
    DeselectCardInv(g, c);
  }

  lemma ClearSelectionInv(g: Game)
    requires Inv(g)
    ensures Inv(ClearSelection(g))
  {
  }

  /** As written, selecting one more face-up card at the cap grows the selection past cards-per-set. */
  lemma SelectCardAsWrittenExceedsCap(g: Game, c: Card)
    requires c in g.faceUp.cards && c !in g.selected.cards && |g.selected.cards| == g.cardsPerSet
    ensures |SelectCardAsWritten(g, c).selected.cards| == g.cardsPerSet + 1
    ensures !SelectionInv(SelectCardAsWritten(g, c))
    ensures |SelectCard(g, c).selected.cards| == g.cardsPerSet
  {
    var s := g.selected.cards;
    var pos := SpliceStart(|s|, |s| - 1);
    assert SelectCardAsWritten(g, c).selected.cards == s[..pos] + [c] + s[pos..];
  }

  // ----- giving cards and penalties -----

  /** The state after face-up card c moved into the hand at position i. */
  function MoveToHand(g: Game, i: int, c: Card): Game
    requires 0 <= i < |g.players|
  {
    g.(faceUp := RemoveCard(g.faceUp, c), players := g.players[i := ReceiveCard(g.players[i], c)])
  }

  /** After the move every hand is still valid and apart from both pools. */
  lemma MoveToHandHandsOk(g: Game, i: int, c: Card)
    requires CardsInv(g) && 0 <= i < |g.players| && c in g.faceUp.cards
    ensures forall j :: 0 <= j < |g.players| ==> HandOk(MoveToHand(g, i, c), MoveToHand(g, i, c).players[j].hand)
  {
    var r := MoveToHand(g, i, c);
    var ps := g.players;
    assert c !in r.faceUp.cards;
    assert forall x :: x in r.faceUp.cards ==> x in g.faceUp.cards;
    forall j | 0 <= j < |ps| ensures HandOk(r, r.players[j].hand) {
      assert HandOk(g, ps[j].hand);
      if j == i {
        assert c !in ps[i].hand.cards;
        assert InUniverse(g.attributeSet, c);
        assert c !in g.faceDown.cards;
        assert r.players[i].hand.cards == [c] + ps[i].hand.cards;
      } else {
        assert r.players[j] == ps[j];
      }
    }
  }

  /** The move keeps the card invariants. */
  lemma MoveToHandCardsInv(g: Game, i: int, c: Card)
    requires CardsInv(g) && 0 <= i < |g.players| && c in g.faceUp.cards
    ensures CardsInv(MoveToHand(g, i, c))
  {
    var r := MoveToHand(g, i, c);
    var ps := g.players;
    assert HandOk(g, ps[i].hand);
    assert c !in ps[i].hand.cards;
    RemovingKeepsValid(g.faceUp, c);
    HandTotalUpdate(ps, i, r.players[i]);
    MoveToHandHandsOk(g, i, c);
    ReceivingFaceUpKeepsHandsDisjoint(g, i, c);
  }

  /** giveCard keeps the card and player invariants: the card leaves face-up for one hand, and the total is unchanged. */
  lemma GiveCardKeepsCardsInv(g: Game, id: int, c: Card)
    requires CardsInv(g) && PlayersInv(g)
    ensures CardsInv(GiveCard(g, id, c)) && PlayersInv(GiveCard(g, id, c))
  {
    if IsMember(g.players, id) && c in g.faceUp.cards {
      var i := PlayerIndex(g.players, id);
      assert GiveCard(g, id, c) == MoveToHand(g, i, c);
      MoveToHandCardsInv(g, i, c);
      assert Ids(MoveToHand(g, i, c).players) == Ids(g.players);
    }
  }

  /** A face-up card added to one hand is in no other hand, so the hands stay pairwise disjoint. */
  lemma ReceivingFaceUpKeepsHandsDisjoint(g: Game, i: int, c: Card)
    requires CardsInv(g) && 0 <= i < |g.players| && c in g.faceUp.cards
    ensures HandsDisjoint(g.players[i := ReceiveCard(g.players[i], c)])
  {
    var ps := g.players;
    var ps' := ps[i := ReceiveCard(ps[i], c)];
    forall a, b | 0 <= a < |ps'| && 0 <= b < |ps'| && a != b
      ensures Disjoint(ps'[a].hand.cards, ps'[b].hand.cards)
    {
      assert Disjoint(ps[a].hand.cards, ps[b].hand.cards);
      assert HandOk(g, ps[a].hand) && HandOk(g, ps[b].hand);
      forall x | x in ps'[a].hand.cards ensures x !in ps'[b].hand.cards {
        if a == i {
          assert x == c || x in ps[a].hand.cards;
          assert ps'[b] == ps[b];
        } else if b == i {
          assert ps'[a] == ps[a];
          assert x !in g.faceUp.cards;
        } else {
          assert ps'[a] == ps[a] && ps'[b] == ps[b];
        }
      }
    }
  }

  /** giveCard keeps every invariant when the given card is not currently selected. */
  lemma GiveCardInv(g: Game, id: int, c: Card)
    requires Inv(g) && c !in g.selected.cards
    ensures Inv(GiveCard(g, id, c))
  {
    GiveCardKeepsCardsInv(g, id, c);
  }

  /** Giving away a selected card leaves it selected but no longer face up: the selection invariant breaks. */
  lemma GiveSelectedCardBreaksInv(g: Game, id: int, c: Card)
    requires Inv(g) && IsMember(g.players, id) && c in g.selected.cards
    ensures !SelectionInv(GiveCard(g, id, c))
  {
    var r := GiveCard(g, id, c);
    assert c in r.selected.cards && c !in r.faceUp.cards;
  }

  lemma GivePenaltyInv(g: Game, id: int, amount: int)
    requires Inv(g)
    ensures Inv(GivePenalty(g, id, amount))
  {
    if IsMember(g.players, id) {
      var r := GivePenalty(g, id, amount);
      var i := PlayerIndex(g.players, id);
      assert r.players == g.players[i := ReceivePenalty(g.players[i], amount)];
      HandTotalUpdate(g.players, i, r.players[i]);
      assert Ids(r.players) == Ids(g.players);
      forall j | 0 <= j < |r.players| ensures HandOk(r, r.players[j].hand) {
        assert r.players[j].hand == g.players[j].hand;
      }
      forall a, b | 0 <= a < |r.players| && 0 <= b < |r.players| && a != b
        ensures Disjoint(r.players[a].hand.cards, r.players[b].hand.cards)
      {
        assert r.players[a].hand == g.players[a].hand && r.players[b].hand == g.players[b].hand;
      }
    }
  }

  lemma PenalizeActivePlayerInv(g: Game, amount: int)
    requires Inv(g)
    ensures Inv(PenalizeActivePlayer(g, amount))
  {
    if g.active.Some? {
      GivePenaltyInv(g, g.active.value, amount);
    }
  }

  /** Giving a list of cards one by one keeps the card and player invariants. */
  lemma {:induction false} GiveAllKeepsCardsInv(g: Game, id: int, cards: seq<Card>)
    requires CardsInv(g) && PlayersInv(g)
    ensures CardsInv(GiveAll(g, id, cards)) && PlayersInv(GiveAll(g, id, cards))
    decreases |cards|
  {
    if |cards| > 0 {
      GiveCardKeepsCardsInv(g, id, cards[0]);
      GiveAllKeepsCardsInv(GiveCard(g, id, cards[0]), id, cards[1..]);
    }
  }

  /** giveSet keeps every invariant: the cards move to a hand and the selection is emptied. */
  lemma GiveSetInv(g: Game)
    requires Inv(g)
    ensures Inv(GiveSet(g))
  {
    if SetFormed(g) {
      var given := match g.active case None => g case Some(id) => GiveAll(g, id, g.selected.cards);
      if g.active.Some? {
        GiveAllKeepsCardsInv(g, g.active.value, g.selected.cards);
      }
      ClearSelectionRestoresInv(given);
    }
  }

  /** Emptying the selection restores the selection invariants whatever the selection held. */
  lemma ClearSelectionRestoresInv(g: Game)
    requires CardsInv(g) && PlayersInv(g) && g.selected.attributeSet == g.attributeSet
    ensures Inv(ClearSelection(g))
  {
  }

  /** Giving distinct face-up cards one by one puts each into the member's hand and takes it off the face-up pool. */
  lemma {:induction false} GiveAllMovesCards(g: Game, id: int, cards: seq<Card>)
    requires CardsInv(g) && IsMember(g.players, id)
    requires NoDup(cards) && forall x :: x in cards ==> x in g.faceUp.cards
    ensures PlayerIndex(GiveAll(g, id, cards).players, id) == PlayerIndex(g.players, id)
    ensures forall x :: x in cards ==>
              && x in GiveAll(g, id, cards).players[PlayerIndex(g.players, id)].hand.cards
              && x !in GiveAll(g, id, cards).faceUp.cards
    decreases |cards|
  {
    var r := GiveAll(g, id, cards);
    assert Ids(r.players) == Ids(g.players);
    if |cards| > 0 {
      var c := cards[0];
      var g1 := GiveCard(g, id, c);
      var i := PlayerIndex(g.players, id);
      GiveFirstCard(g, id, c);
      RestStayFaceUp(g, id, cards);
      GiveAllMovesCards(g1, id, cards[1..]);
      assert r == GiveAll(g1, id, cards[1..]);
      forall x | x in cards ensures x in r.players[i].hand.cards && x !in r.faceUp.cards {
        if x != c {
          assert x in cards[1..];
        }
      }
    }
  }

  /** Giving a face-up card to a member moves it into that hand, keeping the card invariants. */
  lemma GiveFirstCard(g: Game, id: int, c: Card)
    requires CardsInv(g) && IsMember(g.players, id) && c in g.faceUp.cards
    ensures var g1 := GiveCard(g, id, c);
            var i := PlayerIndex(g.players, id);
            && CardsInv(g1) && Ids(g1.players) == Ids(g.players)
            && c in g1.players[i].hand.cards && c !in g1.faceUp.cards
  {
    var g1 := GiveCard(g, id, c);
    var i := PlayerIndex(g.players, id);
    assert Ids(g1.players) == Ids(g.players);
    MoveToHandCardsInv(g, i, c);
    assert g1 == MoveToHand(g, i, c);
  }

  /** After the first of distinct face-up cards is given away, the others are still face up. */
  lemma RestStayFaceUp(g: Game, id: int, cards: seq<Card>)
    requires |cards| > 0 && NoDup(cards) && forall x :: x in cards ==> x in g.faceUp.cards
    ensures NoDup(cards[1..]) && forall x :: x in cards[1..] ==> x in GiveCard(g, id, cards[0]).faceUp.cards
  {
    DropFirstNoDup(cards);
    RestStayInDeck(g.faceUp, cards);
  }

  /** Removing the first of distinct cards of a deck leaves the others in it. */
  lemma RestStayInDeck(d: Deck, cards: seq<Card>)
    requires |cards| > 0 && NoDup(cards) && forall x :: x in cards ==> x in d.cards
    ensures forall x :: x in cards[1..] ==> x in RemoveCard(d, cards[0]).cards
  {
    forall x | x in cards[1..] ensures x in RemoveCard(d, cards[0]).cards {
      var j :| 0 <= j < |cards[1..]| && cards[1..][j] == x;
      assert cards[j + 1] == x && x != cards[0];
      assert x in cards && x in d.cards && x in multiset(d.cards);
      assert x in multiset(RemoveCard(d, cards[0]).cards);
    }
  }

  /** giveSet on a formed set with an active member: every selected card ends in that player's hand and off the face-up pool. */
  lemma GiveSetMovesSelection(g: Game)
    requires Inv(g) && SetFormed(g) && g.active.Some?
    ensures var i := PlayerIndex(g.players, g.active.value);
            && 0 <= i < |GiveSet(g).players|
            && forall x :: x in g.selected.cards ==> x in GiveSet(g).players[i].hand.cards && x !in GiveSet(g).faceUp.cards
  {
    var id := g.active.value;
    GiveAllMovesCards(g, id, g.selected.cards);
    var given := GiveAll(g, id, g.selected.cards);
    assert GiveSet(g) == ClearSelection(given);
  }
}

=== FILE: game_state.dfy ===
/**
  One game of Set: the rules (attribute universe, cards per set), the
  players, the face-down and face-up pools, the player currently forming
  a set and the cards selected for it. Every operation is a function from
  the old state to the new one; the players are identified by ID.
*/
module Games {
  import opened Wrappers
  import opened Sequences
  import opened Cards
  import opened CardIds
  import opened Combinations
  import SetRule
  import opened Decks
  import opened Players

  datatype Game = Game(
    attributeSet: AttributeSet,
    cardsPerSet: nat,
    players: seq<Player>,
    faceDown: Deck,
    faceUp: Deck,
    active: Option<int>,
    selected: Deck)

  // ----- players by ID -----

  function Ids(ps: seq<Player>): (ids: seq<int>)
    ensures |ids| == |ps| && forall i :: 0 <= i < |ps| ==> ids[i] == ps[i].id
  {
    seq(|ps|, i requires 0 <= i < |ps| => ps[i].id)
  }

  predicate IsMember(ps: seq<Player>, id: int) {
    id in Ids(ps)
  }

  /** The position of the player with the given ID, -1 when there is none. */
  function PlayerIndex(ps: seq<Player>, id: int): (i: int)
    ensures -1 <= i < |ps|
    ensures i == -1 <==> !IsMember(ps, id)
    ensures 0 <= i ==> ps[i].id == id && forall j :: 0 <= j < i ==> ps[j].id != id
  {
    var i := IndexOf(Ids(ps), id);
    assert 0 <= i ==> forall j :: 0 <= j < i ==> Ids(ps)[j] != id;
    i
  }

  /** The sum of the hand sizes. */
  function HandTotal(ps: seq<Player>): nat {
    if |ps| == 0 then 0 else |ps[0].hand.cards| + HandTotal(ps[1..])
  }

  // ----- the invariants of the game state -----

  /** A hand is built on the universe, duplicate-free, and shares no card with the two pools. */
  predicate HandOk(g: Game, h: Deck) {
    && h.attributeSet == g.attributeSet
    && Valid(h)
    && Disjoint(h.cards, g.faceUp.cards)
    && Disjoint(h.cards, g.faceDown.cards)
  }

  predicate HandsDisjoint(ps: seq<Player>) {
    forall i, j :: 0 <= i < |ps| && 0 <= j < |ps| && i != j ==> Disjoint(ps[i].hand.cards, ps[j].hand.cards)
  }

  /** The card invariants: every card is a card of the universe, listed once, in one place, and none is lost. */
  predicate CardsInv(g: Game) {
    && ValidAttributeSet(g.attributeSet)
    && g.faceDown.attributeSet == g.attributeSet && Valid(g.faceDown)
    && g.faceUp.attributeSet == g.attributeSet && Valid(g.faceUp)
    && Disjoint(g.faceUp.cards, g.faceDown.cards)
    && (forall i :: 0 <= i < |g.players| ==> HandOk(g, g.players[i].hand))
    && HandsDisjoint(g.players)
    && |g.faceDown.cards| + |g.faceUp.cards| + HandTotal(g.players) == NumPossibleCards(g.attributeSet)
  }

  /** The player invariants: IDs are distinct and the active player, if any, is in the game. */
  predicate PlayersInv(g: Game) {
    && NoDup(Ids(g.players))
    && (g.active.Some? ==> IsMember(g.players, g.active.value))
  }

  /** The selection invariants: distinct face-up cards, at most cards-per-set of them. */
  predicate SelectionInv(g: Game) {
    && g.selected.attributeSet == g.attributeSet
    && NoDup(g.selected.cards)
    && (forall c :: c in g.selected.cards ==> c in g.faceUp.cards)
    && |g.selected.cards| <= g.cardsPerSet
  }

  predicate Inv(g: Game) {
    CardsInv(g) && PlayersInv(g) && SelectionInv(g)
  }

  // ----- kernel operations -----

  /** The constructor: no players, every card face down, nothing face up or selected, nobody active. */
  function Init(u: AttributeSet, k: nat): (g: Game)
    ensures g.attributeSet == u && g.cardsPerSet == k
    ensures g.players == [] && g.active == None
    ensures g.faceUp.cards == [] && g.selected.cards == []
    ensures ValidAttributeSet(u) ==> |g.faceDown.cards| == NumPossibleCards(u)
    ensures ValidAttributeSet(u) ==> forall c :: c in g.faceDown.cards <==> InUniverse(u, c)
  {
    var down := Generate(Empty(u));
    if ValidAttributeSet(u) then
      GenerateValid(Empty(u));
      Game(u, k, [], down, Empty(u), None, Empty(u))
    else
      Game(u, k, [], down, Empty(u), None, Empty(u))
  }

  /** The ID addPlayer hands out: one more than the largest present ID, or 0 when there are no players. */
  function NewPlayerId(ps: seq<Player>): (id: int)
    ensures forall i :: 0 <= i < |ps| ==> ps[i].id < id
    ensures |ps| == 0 ==> id == 0
    ensures |ps| > 0 ==> exists i :: 0 <= i < |ps| && ps[i].id == id - 1
    ensures !IsMember(ps, id)
  {
    if |ps| == 0 then 0
    else
      var init := ps[..|ps| - 1];
      var rest := NewPlayerId(init);
      var last := ps[|ps| - 1].id;
      assert forall i :: 0 <= i < |init| ==> ps[i] == init[i];
      if |ps| == 1 || last >= rest then
        last + 1
      else
        assert exists i :: 0 <= i < |ps| && ps[i].id == rest - 1 by {
          var j :| 0 <= j < |init| && init[j].id == rest - 1;
          assert ps[j].id == rest - 1;
        }
        rest
  }

  /** addPlayer: a new player with a fresh ID, the given name, an empty hand and no penalties joins at the end. */
  function AddPlayer(g: Game, name: string): (r: Game)
    ensures |r.players| == |g.players| + 1 && r.players[..|g.players|] == g.players
    ensures var p := r.players[|g.players|];
              && p.name == name && p.hand.attributeSet == g.attributeSet && p.hand.cards == [] && p.penalties == 0
              && !IsMember(g.players, p.id)
    ensures r.(players := g.players) == g
  {
    g.(players := g.players + [NewPlayer(g.attributeSet, NewPlayerId(g.players), name)])
  }

  /** removePlayer: the player with the ID leaves the list, the others keep their order; no-op for a non-member. */
  function RemovePlayer(g: Game, id: int): (r: Game)
    ensures !IsMember(g.players, id) ==> r == g
    ensures IsMember(g.players, id) ==>
              var i := PlayerIndex(g.players, id);
              r.players == g.players[..i] + g.players[i + 1..]
    ensures r.(players := g.players) == g
    ensures NoDup(Ids(g.players)) ==> !IsMember(r.players, id)
  {
    var i := PlayerIndex(g.players, id);
    if i < 0 then g
    else
      var ps := g.players[..i] + g.players[i + 1..];
      assert Ids(ps) == Ids(g.players)[..i] + Ids(g.players)[i + 1..];
      if NoDup(Ids(g.players)) then RemoveAtNoDup(Ids(g.players), i); g.(players := ps) else g.(players := ps)
  }

  /** revealCard: the top face-down card goes to the bottom of the face-up pool and is returned; absent when none is left. */
  function RevealCard(g: Game): (r: (Option<Card>, Game))
    ensures |g.faceDown.cards| == 0 ==> r == (None, g)
    ensures |g.faceDown.cards| > 0 ==>
              var c := g.faceDown.cards[0];
              && r.0 == Some(c)
              && r.1.faceDown.cards == g.faceDown.cards[1..]
              && (forall x :: x in r.1.faceUp.cards <==> x in g.faceUp.cards || x == c)
              && (c !in g.faceUp.cards ==> r.1.faceUp.cards == g.faceUp.cards + [c])
              && r.1.(faceDown := g.faceDown, faceUp := g.faceUp) == g
  {
    var (top, rest) := RemoveTop(g.faceDown);
    match top
    case None => (None, g)
    case Some(c) => (Some(c), g.(faceDown := rest, faceUp := AddToBottom(g.faceUp, c)))
  }

  /** handleSetCall: a member becomes the active player, with an empty selection, only when nobody is active. */
  function HandleSetCall(g: Game, id: int): (r: Game)
    ensures IsMember(g.players, id) && g.active.None? ==>
              r.active == Some(id) && r.selected.cards == [] && r.(active := None, selected := g.selected) == g
    ensures !(IsMember(g.players, id) && g.active.None?) ==> r == g
  {
    if IsMember(g.players, id) && g.active.None? then
      g.(active := Some(id), selected := Clear(g.selected))
    else g
  }

  /** Once a player is active every further call leaves the state unchanged: the first valid caller wins. */
  lemma FirstCallerWins(g: Game, first: int, second: int)
    requires IsMember(g.players, first) && g.active.None?
    ensures HandleSetCall(g, first).active == Some(first)
    ensures HandleSetCall(HandleSetCall(g, first), second) == HandleSetCall(g, first)
  {
  }

  /** callSet: the player asks to form a set; only a member calling while nobody is active becomes active. */
  function CallSet(g: Game, p: Player): (r: Game)
    ensures IsMember(g.players, p.id) && g.active.None? ==>
              r.active == Some(p.id) && r.selected.cards == [] && r.(active := None, selected := g.selected) == g
    ensures !(IsMember(g.players, p.id) && g.active.None?) ==> r == g
  {
    HandleSetCall(g, p.id)
  }

  /**
    selectCard: a face-up card joins the selection at the bottom, unless
    already selected; when the selection then exceeds cards-per-set the
    earliest-selected card, on top, is dropped.
  */
  function SelectCard(g: Game, c: Card): (r: Game)
    ensures c !in g.faceUp.cards ==> r == g
    ensures r.(selected := g.selected) == g && r.selected.attributeSet == g.selected.attributeSet
    ensures c in g.faceUp.cards && c !in g.selected.cards && |g.selected.cards| < g.cardsPerSet ==>
              r.selected.cards == g.selected.cards + [c]
    ensures c in g.faceUp.cards && c !in g.selected.cards && |g.selected.cards| == g.cardsPerSet ==>
              r.selected.cards == (g.selected.cards + [c])[1..]
    ensures c in g.selected.cards && |g.selected.cards| <= g.cardsPerSet ==> r == g
    ensures |g.selected.cards| <= g.cardsPerSet ==> |r.selected.cards| <= g.cardsPerSet
    ensures forall x :: x in r.selected.cards ==> x in g.selected.cards || x == c
    ensures NoDup(g.selected.cards) ==> NoDup(r.selected.cards)
  {
    if c in g.faceUp.cards then
      var added := AddToBottom(g.selected, c);
      if |added.cards| > g.cardsPerSet then
        var (_, rest) := RemoveTop(added);
        DropFirstNoDup(added.cards);
        g.(selected := rest)
      else
        g.(selected := added)
    else g
  }

  /**
    selectCard as written: the size test reads the method `size` instead of
    calling it, which is never greater than a number, so nothing is dropped;
    the card goes in through the as-written addToBottom.
  */
  function SelectCardAsWritten(g: Game, c: Card): Game {
    if c in g.faceUp.cards then g.(selected := AddToBottomAsWritten(g.selected, c)) else g
  }

  /** deselectCard: the card leaves the selection; the other selected cards keep their order. */
  function DeselectCard(g: Game, c: Card): (r: Game)
    ensures r.(selected := g.selected) == g && r.selected.attributeSet == g.selected.attributeSet
    ensures NoDup(g.selected.cards) ==> c !in r.selected.cards && NoDup(r.selected.cards)
    ensures multiset(r.selected.cards) == multiset(g.selected.cards) - multiset{c}
    ensures forall x :: x in r.selected.cards ==> x in g.selected.cards
  {
    g.(selected := RemoveCard(g.selected, c))
  }

  /** Selecting a face-up card below the cap and then deselecting it restores the state. */
  lemma SelectThenDeselect(g: Game, c: Card)
    requires c in g.faceUp.cards && c !in g.selected.cards && |g.selected.cards| < g.cardsPerSet
    ensures DeselectCard(SelectCard(g, c), c) == g
  {
    var s := g.selected;
    assert SelectCard(g, c).selected == AddToBottom(s, c);
    AddThenRemove(s, c, |s.cards|);
  }

  /** clearSetCall: nobody is active and nothing is selected; the rest is unchanged. */
  function ClearSetCall(g: Game): (r: Game)
    ensures r.active == None && r.selected.cards == [] && r.selected.attributeSet == g.selected.attributeSet
    ensures r.(active := g.active, selected := g.selected) == g
  {
    g.(active := None, selected := Clear(g.selected))
  }

  /** giveCard: a face-up card moves into a member's hand; otherwise nothing changes. */
  function GiveCard(g: Game, id: int, c: Card): (r: Game)
    ensures !(IsMember(g.players, id) && c in g.faceUp.cards) ==> r == g
    ensures IsMember(g.players, id) && c in g.faceUp.cards ==>
              var i := PlayerIndex(g.players, id);
              && |r.players| == |g.players|
              && r.players[i] == ReceiveCard(g.players[i], c)
              && (forall j :: 0 <= j < |g.players| && j != i ==> r.players[j] == g.players[j])
              && r.faceUp == RemoveCard(g.faceUp, c)
              && c in r.players[i].hand.cards
              && (NoDup(g.faceUp.cards) ==> c !in r.faceUp.cards)
              && r.(faceUp := g.faceUp, players := g.players) == g
  {
    var i := PlayerIndex(g.players, id);
    if 0 <= i && c in g.faceUp.cards then
      g.(faceUp := RemoveCard(g.faceUp, c), players := g.players[i := ReceiveCard(g.players[i], c)])
    else g
  }

  /** givePenalty: a member's penalty counter grows by the amount; otherwise nothing changes. */
  function GivePenalty(g: Game, id: int, amount: int): (r: Game)
    ensures |r.players| == |g.players|
    ensures !IsMember(g.players, id) ==> r == g
    ensures IsMember(g.players, id) ==>
              var i := PlayerIndex(g.players, id);
              && r.players[i].penalties == g.players[i].penalties + amount
              && r.players[i].(penalties := g.players[i].penalties) == g.players[i]
              && (forall j :: 0 <= j < |g.players| && j != i ==> r.players[j] == g.players[j])
              && r.(players := g.players) == g
  {
    var i := PlayerIndex(g.players, id);
    if i < 0 then g else g.(players := g.players[i := ReceivePenalty(g.players[i], amount)])
  }

  // ----- secondary operations -----

  /** findPlayerById, as documented: the player with the ID, or absent. */
  function FindPlayerById(g: Game, id: int): (r: Option<Player>)
    ensures r.Some? <==> IsMember(g.players, id)
    ensures r.Some? ==> r.value in g.players && r.value.id == id
  {
    var i := PlayerIndex(g.players, id);
    if i < 0 then None else Some(g.players[i])
  }

  /** The loop of findPlayerById as written: it assigns only when `result` is already non-null. */
  function ScanAsWritten(ps: seq<Player>, id: int, result: Option<Player>): Option<Player>
    decreases |ps|
  {
    if |ps| == 0 then result
    else ScanAsWritten(ps[1..], id, if result.Some? && ps[0].id == id then Some(ps[0]) else result)
  }

  function FindPlayerByIdAsWritten(g: Game, id: int): Option<Player> {
    ScanAsWritten(g.players, id, None)
  }

  /** Started from null the as-written scan never assigns, so it stays null. */
  lemma {:induction false} ScanAsWrittenStaysNull(ps: seq<Player>, id: int)
    ensures ScanAsWritten(ps, id, None) == None
    decreases |ps|
  {
    if |ps| > 0 {
      ScanAsWrittenStaysNull(ps[1..], id);
    }
  }

  /** For any member ID the as-written lookup answers absent, where the documented one finds the player. */
  lemma FindPlayerByIdAsWrittenMisses(g: Game, id: int)
    requires IsMember(g.players, id)
    ensures FindPlayerByIdAsWritten(g, id) == None
    ensures FindPlayerById(g, id).Some?
  {
    ScanAsWrittenStaysNull(g.players, id);
  }

  /** The ID-to-player map of a player list, filled front to back. */
  function PlayerIdMapOf(ps: seq<Player>): (m: map<int, Player>)
    ensures forall p :: p in ps ==> p.id in m
    ensures forall id :: id in m ==> m[id] in ps && m[id].id == id
    decreases |ps|
  {
    if |ps| == 0 then map[]
    else
      var init, last := ps[..|ps| - 1], ps[|ps| - 1];
      assert ps == init + [last];
      PlayerIdMapOf(init)[last.id := last]
  }

  /** An ID no player of the list carries is not a key of the list's map. */
  lemma PlayerIdMapOfFresh(ps: seq<Player>, id: int)
    requires !IsMember(ps, id)
    ensures id !in PlayerIdMapOf(ps)
  {
  }

  /** With distinct IDs no key is written twice, so there is one entry per player. */
  lemma {:induction false} PlayerIdMapOfSize(ps: seq<Player>)
    requires NoDup(Ids(ps))
    ensures |PlayerIdMapOf(ps)| == |ps|
    decreases |ps|
  {
    if |ps| > 0 {
      var n := |ps| - 1;
      var init, last := ps[..n], ps[n];
      var ids := Ids(ps);
      assert Ids(init) == ids[..n];
      assert NoDup(Ids(init)) by {
        forall i, j | 0 <= i < j < n ensures ids[..n][i] != ids[..n][j] {
          assert ids[i] != ids[j];
        }
      }
      assert !IsMember(init, last.id) by {
        forall i | 0 <= i < n ensures ids[..n][i] != last.id {
          assert ids[i] != ids[n];
        }
      }
      PlayerIdMapOfSize(init);
      PlayerIdMapOfFresh(init, last.id);
      var m := PlayerIdMapOf(init);
      assert m[last.id := last].Keys == m.Keys + {last.id};
    }
  }

  /**
    playerIdMap, as documented: every player keyed by its ID, one entry per
    player when the IDs are distinct.
  */
  function PlayerIdMap(g: Game): (m: map<int, Player>)
    ensures forall p :: p in g.players ==> p.id in m
    ensures forall id :: id in m ==> m[id] in g.players && m[id].id == id
    ensures forall id :: id in m <==> IsMember(g.players, id)
    ensures NoDup(Ids(g.players)) ==> |m| == |g.players|
  {
    var m := PlayerIdMapOf(g.players);
    assert NoDup(Ids(g.players)) ==> |m| == |g.players| by {
      if NoDup(Ids(g.players)) {
        PlayerIdMapOfSize(g.players);
      }
    }
    assert forall id :: id in m <==> IsMember(g.players, id) by {
      forall id ensures id in m <==> IsMember(g.players, id) {
        if IsMember(g.players, id) {
          var i := PlayerIndex(g.players, id);
          assert g.players[i] in g.players;
        }
        if id in m {
          var i :| 0 <= i < |g.players| && g.players[i] == m[id];
          assert Ids(g.players)[i] == id;
        }
      }
    }
    m
  }

  /** toggleCardSelection: deselect a selected card, otherwise select it. */
  function ToggleCardSelection(g: Game, c: Card): (r: Game)
    ensures c in g.selected.cards && NoDup(g.selected.cards) ==> c !in r.selected.cards
    ensures c !in g.selected.cards && c in g.faceUp.cards && |g.selected.cards| < g.cardsPerSet ==>
              r.selected.cards == g.selected.cards + [c]
    ensures c !in g.selected.cards && c in g.faceUp.cards && |g.selected.cards| == g.cardsPerSet ==>
              r.selected.cards == (g.selected.cards + [c])[1..]
    ensures c !in g.selected.cards && c !in g.faceUp.cards ==> r == g
    ensures r.(selected := g.selected) == g
  {
    if c in g.selected.cards then DeselectCard(g, c) else SelectCard(g, c)
  }

  /** Toggling a face-up, unselected card twice below the cap restores the state. */
  lemma ToggleTwice(g: Game, c: Card)
    requires c in g.faceUp.cards && c !in g.selected.cards && |g.selected.cards| < g.cardsPerSet
    ensures ToggleCardSelection(ToggleCardSelection(g, c), c) == g
  {
    SelectThenDeselect(g, c);
  }

  /** Deselect each card of a fixed list in turn. */
  function DeselectAll(g: Game, cards: seq<Card>): (r: Game)
    ensures r.(selected := g.selected) == g && r.selected.attributeSet == g.selected.attributeSet
    ensures multiset(r.selected.cards) == multiset(g.selected.cards) - multiset(cards)
    decreases |cards|
  {
    if |cards| == 0 then g
    else
      var g1 := DeselectCard(g, cards[0]);
      var r := DeselectAll(g1, cards[1..]);
      SubtractHeadThenTail(multiset(g.selected.cards), cards);
      r
  }

  /** clearSelection, as documented: deselect every selected card, leaving none. */
  function ClearSelection(g: Game): (r: Game)
    ensures r.selected.cards == [] && r.selected.attributeSet == g.selected.attributeSet
    ensures r.(selected := g.selected) == g
  {
    var r := DeselectAll(g, g.selected.cards);
    assert multiset(r.selected.cards) == multiset{};
    r
  }

  /**
    The loop of clearSelection as written: `forEach` walks the live list
    by index while each deselect splices the visited card out of it.
  */
  function ForEachDeselectAsWritten(g: Game, i: nat): Game
    decreases |g.selected.cards| - i
  {
    if i >= |g.selected.cards| then g
    else ForEachDeselectAsWritten(DeselectCard(g, g.selected.cards[i]), i + 1)
  }

  function ClearSelectionAsWritten(g: Game): Game {
    ForEachDeselectAsWritten(g, 0)
  }

  /** Each visited card shrinks the list by one while the index grows by one, so half the cards are never visited. */
  lemma {:induction false} ForEachDeselectAsWrittenSize(g: Game, i: nat)
    requires i <= |g.selected.cards| + 1
    ensures |ForEachDeselectAsWritten(g, i).selected.cards| == (|g.selected.cards| + i) / 2
    decreases |g.selected.cards| - i
  {
    if i < |g.selected.cards| {
      var g' := DeselectCard(g, g.selected.cards[i]);
      assert |g'.selected.cards| == |g.selected.cards| - 1;
      ForEachDeselectAsWrittenSize(g', i + 1);
    }
  }

  /** As written, clearSelection leaves half of the selection (rounded down) selected. */
  lemma ClearSelectionAsWrittenLeavesCards(g: Game)
    ensures |ClearSelectionAsWritten(g).selected.cards| == |g.selected.cards| / 2
    ensures |g.selected.cards| >= 2 ==> ClearSelectionAsWritten(g).selected.cards != ClearSelection(g).selected.cards
  {
    ForEachDeselectAsWrittenSize(g, 0);
  }

  /** possibleSets: every set among the face-up cards, as the set rule enumerates them. */
  function PossibleSets(g: Game): (r: seq<seq<Card>>)
    ensures forall s :: s in r ==> SetRule.IsSet(s, g.cardsPerSet) && forall x :: x in s ==> x in g.faceUp.cards
    ensures forall t :: 0 < g.cardsPerSet && IsCombination(t, 0, |g.faceUp.cards|, g.cardsPerSet)
                        && SetRule.IsSet(SetRule.Pick(g.faceUp.cards, t), g.cardsPerSet)
                        ==> SetRule.Pick(g.faceUp.cards, t) in r
    ensures |r| == |SetRule.SetIndices(g.faceUp.cards, g.cardsPerSet)|
    ensures forall i :: 0 <= i < |r| ==> r[i] == SetRule.Pick(g.faceUp.cards, SetRule.SetIndices(g.faceUp.cards, g.cardsPerSet)[i])
    ensures NoDup(g.faceUp.cards) ==> NoDup(r) && forall s :: s in r ==> NoDup(s)
  {
    SetRule.PossibleSetsSubset(g.faceUp.cards, g.cardsPerSet);
    if NoDup(g.faceUp.cards) then
      SetRule.PossibleSetsDistinct(g.faceUp.cards, g.cardsPerSet);
      SetRule.PossibleSets(g.faceUp.cards, g.cardsPerSet)
    else
      SetRule.PossibleSets(g.faceUp.cards, g.cardsPerSet)
  }

  /** possibleSetsAsDecks: the same sets, each as a deck on the game's universe, in the same order. */
  function PossibleSetsAsDecks(g: Game): (r: seq<Deck>)
    ensures |r| == |PossibleSets(g)|
    ensures forall i :: 0 <= i < |r| ==> r[i].attributeSet == g.faceUp.attributeSet && r[i].cards == PossibleSets(g)[i]
    ensures Valid(g.faceUp) ==> forall s :: s in r ==> Valid(s)
  {
    Decks.PossibleSets(g.faceUp, g.cardsPerSet)
  }

  /** canFormSets: some cards-per-set face-up cards at increasing positions form a set. */
  function CanFormSets(g: Game): (b: bool)
    ensures b <==> exists t :: 0 < g.cardsPerSet && IsCombination(t, 0, |g.faceUp.cards|, g.cardsPerSet)
                              && SetRule.IsSet(SetRule.Pick(g.faceUp.cards, t), g.cardsPerSet)
  {
    HasSets(g.faceUp, g.cardsPerSet)
  }

  /** canFormSets holds exactly when possibleSets is not empty. */
  lemma CanFormSetsIffPossibleSets(g: Game)
    ensures CanFormSets(g) <==> |PossibleSets(g)| > 0
  {
    var r := PossibleSets(g);
    if |r| > 0 {
      var idx := SetRule.SetIndices(g.faceUp.cards, g.cardsPerSet);
      assert idx[0] in idx;
    }
  }

  /** setFormed, as documented: the selection is exactly cards-per-set cards forming a set. */
  function SetFormed(g: Game): (b: bool)
    ensures b <==> |g.selected.cards| == g.cardsPerSet && SetRule.SetRuleHolds(g.selected.cards)
  {
    Decks.IsSet(g.selected, g.cardsPerSet)
  }

  /** isSet with its count argument possibly missing, as JavaScript passes `undefined`; no length equals `undefined`. */
  function IsSetWithCount(cards: seq<Card>, count: Option<int>): bool {
    count.Some? && SetRule.IsSet(cards, count.value)
  }

  /** setFormed as written: `isSet()` is called without the cards-per-set argument. */
  function SetFormedAsWritten(g: Game): bool {
    IsSetWithCount(g.selected.cards, None)
  }

  /** The as-written setFormed never holds, so it disagrees with the documented one on every formed set. */
  lemma SetFormedAsWrittenNeverHolds(g: Game)
    ensures !SetFormedAsWritten(g)
    ensures SetFormed(g) ==> SetFormed(g) != SetFormedAsWritten(g)
  {
  }

  /** A one-card universe with one card per set: selecting the card forms a set that the as-written check rejects. */
  lemma SetFormedAsWrittenMissesSet()
    ensures var u := [AttributeDef("color", ["red"])];
            var c := Card([("color", "red")], 0);
            var g := Game(u, 1, [], Empty(u), Deck(u, [c]), None, Deck(u, [c]));
            SetFormed(g) && !SetFormedAsWritten(g)
  {
    var c := Card([("color", "red")], 0);
    var cards := [c];
    assert SetRule.AllSame(cards, "color");
    assert AttributeNames(c) == ["color"];
    assert SetRule.SetRuleHolds(cards);
  }

  /** mismatchedAttributes of the selection, the documented reading of gameState's wrapper. */
  function MismatchedAttributes(g: Game): (r: seq<Name>)
    ensures |g.selected.cards| == 0 ==> r == []
    ensures |g.selected.cards| > 0 ==> forall n :: n in r <==>
              n in AttributeNames(g.selected.cards[0])
              && !(SetRule.AllSame(g.selected.cards, n) || SetRule.AllDifferent(g.selected.cards, n))
  {
    Decks.MismatchedAttributes(g.selected)
  }

  /** penalizeActivePlayer: the active player's counter grows by the amount; nothing happens when nobody is active. */
  function PenalizeActivePlayer(g: Game, amount: int): (r: Game)
    ensures |r.players| == |g.players|
    ensures g.active.None? ==> r == g
    ensures g.active.Some? && IsMember(g.players, g.active.value) ==>
              var i := PlayerIndex(g.players, g.active.value);
              && r.players[i] == g.players[i].(penalties := g.players[i].penalties + amount)
              && (forall j :: 0 <= j < |g.players| && j != i ==> r.players[j] == g.players[j])
              && r.(players := g.players) == g
  {
    match g.active
    case None => g
    case Some(id) => GivePenalty(g, id, amount)
  }

  /** Give each card of a fixed list to the player with the ID in turn. */
  function GiveAll(g: Game, id: int, cards: seq<Card>): (r: Game)
    ensures r.attributeSet == g.attributeSet && r.cardsPerSet == g.cardsPerSet
    ensures r.faceDown == g.faceDown && r.active == g.active && r.selected == g.selected
    ensures Ids(r.players) == Ids(g.players)
    ensures forall x :: x in r.faceUp.cards ==> x in g.faceUp.cards
    ensures forall j, x :: 0 <= j < |g.players| && x in g.players[j].hand.cards ==> x in r.players[j].hand.cards
    decreases |cards|
  {
    if |cards| == 0 then g
    else
      var g1 := GiveCard(g, id, cards[0]);
      assert forall j, x :: 0 <= j < |g.players| && x in g.players[j].hand.cards ==> x in g1.players[j].hand.cards;
      GiveAll(g1, id, cards[1..])
  }

  /**
    giveSet, as documented: when the selection forms a set its cards go to
    the active player and the selection is cleared. The active player stays
    active.
  */
  function GiveSet(g: Game): (r: Game)
    ensures !SetFormed(g) ==> r == g
    ensures SetFormed(g) ==> r.selected.cards == [] && r.active == g.active && r.faceDown == g.faceDown
    ensures Ids(r.players) == Ids(g.players)
  {
    if SetFormed(g) then
      var given := match g.active case None => g case Some(id) => GiveAll(g, id, g.selected.cards);
      ClearSelection(given)
    else g
  }
}

=== FILE: player_state.dfy ===
/**
  A player: numeric ID, screen name, hand of received cards and penalty
  counter. The source's back-reference from a player to its game is
  replaced by the player's ID; the game finds players by ID.
*/
module Players {
  import opened Sequences
  import opened Cards
  import opened CardIds
  import opened Decks

  datatype Player = Player(id: int, name: string, hand: Deck, penalties: int)

  /** The constructor: the given ID and name, an empty hand on the game's universe, no penalties. */
  function NewPlayer(u: AttributeSet, id: int, name: string): (p: Player)
    ensures p.id == id && p.name == name && p.penalties == 0
    ensures p.hand.attributeSet == u && NumCards(p) == 0
    ensures ValidAttributeSet(u) ==> Valid(p.hand)
  {
    Player(id, name, Empty(u), 0)
  }

  /** receiveCard: the card joins the hand at the top unless already held. */
  function ReceiveCard(p: Player, c: Card): (r: Player)
    ensures r.id == p.id && r.name == p.name && r.penalties == p.penalties
    ensures r.hand.attributeSet == p.hand.attributeSet
    ensures forall x :: x in r.hand.cards <==> x in p.hand.cards || x == c
    ensures c !in p.hand.cards ==> r.hand.cards == [c] + p.hand.cards
    ensures c in p.hand.cards ==> r == p
    ensures Valid(p.hand) && InUniverse(p.hand.attributeSet, c) ==> Valid(r.hand)
  {
    p.(hand := AddToTop(p.hand, c))
  }

  /** receivePenalty: the counter grows by the amount (1 in the source's default call). */
  function ReceivePenalty(p: Player, amount: int): (r: Player)
    ensures r.penalties - p.penalties == amount
    ensures r.(penalties := p.penalties) == p
  {
    p.(penalties := p.penalties + amount)
  }

  /** Penalties accumulate: two penalties in a row are one penalty of the summed amount. */
  lemma ReceivePenaltyAccumulates(p: Player, a: int, b: int)
    ensures ReceivePenalty(ReceivePenalty(p, a), b) == ReceivePenalty(p, a + b)
    ensures ReceivePenalty(p, 0) == p
  {
  }

  /** getNumCards: the number of cards in the hand. */
  function NumCards(p: Player): (n: nat)
    ensures n == |p.hand.cards|
    ensures n == 0 <==> forall c :: c !in p.hand.cards
  {
    Size(p.hand)
  }

  /** Receiving a card not yet held adds exactly one to the count; receiving a held one changes nothing. */
  lemma NumCardsAfterReceive(p: Player, c: Card)
    ensures NumCards(ReceiveCard(p, c)) == NumCards(p) + (if c in p.hand.cards then 0 else 1)
  {
  }
}

=== FILE: sequences.dfy ===
/** Generic facts about sequences used by every layer of the engine. */
module Sequences {

  /** No element occurs twice: the representation invariant of every pile of cards. */
  predicate NoDup<T(==)>(s: seq<T>) {
    forall i, j :: 0 <= i < j < |s| ==> s[i] != s[j]
  }

  /** No element of `a` occurs in `b`. */
  predicate Disjoint<T(==)>(a: seq<T>, b: seq<T>) {
    forall x :: x in a ==> x !in b
  }

  function ToSet<T>(s: seq<T>): set<T> {
    set x | x in s
  }

  /** Position of the first occurrence of `x`, or -1: JavaScript's `Array.prototype.indexOf`. */
  function IndexOf<T(==)>(s: seq<T>, x: T): (i: int)
    ensures -1 <= i < |s|
    ensures i == -1 <==> x !in s
    ensures 0 <= i ==> s[i] == x && forall j :: 0 <= j < i ==> s[j] != x
  {
    if |s| == 0 then -1
    else if s[0] == x then 0
    else
      var k := IndexOf(s[1..], x);
      if k == -1 then -1 else k + 1
  }

  /** In a duplicate-free sequence the index of an element is its only position. */
  lemma IndexOfNoDup<T>(s: seq<T>, i: int)
    requires NoDup(s) && 0 <= i < |s|
    ensures IndexOf(s, s[i]) == i
  {
  }

  /** A sequence has at least as many positions as distinct elements, and exactly as many iff it has no duplicates. */
  lemma {:induction false} SetCardinality<T>(s: seq<T>)
    ensures |ToSet(s)| <= |s|
    ensures |ToSet(s)| == |s| <==> NoDup(s)
  {
    if |s| == 0 {
      assert ToSet(s) == {};
    } else {
      var rest := s[1..];
      SetCardinality(rest);
      assert ToSet(s) == ToSet(rest) + {s[0]};
      if s[0] in rest {
        assert ToSet(s) == ToSet(rest);
        var j :| 0 <= j < |rest| && rest[j] == s[0];
        assert s[0] == s[j + 1];
        assert !NoDup(s);
      } else {
        assert |ToSet(s)| == |ToSet(rest)| + 1;
        if NoDup(rest) {
          forall i, j | 0 <= i < j < |s|
            ensures s[i] != s[j]
          {
            if i == 0 {
              assert s[j] == rest[j - 1];
            } else {
              assert s[i] == rest[i - 1] && s[j] == rest[j - 1];
            }
          }
        }
        if NoDup(s) {
          forall i, j | 0 <= i < j < |rest|
            ensures rest[i] != rest[j]
          {
            assert rest[i] == s[i + 1] && rest[j] == s[j + 1];
          }
        }
      }
    }
  }

  /** A non-empty sequence has exactly one distinct element iff all its elements equal the first. */
  lemma SingleElementIffConstant<T>(s: seq<T>)
    requires |s| > 0
    ensures |ToSet(s)| == 1 <==> forall i :: 0 <= i < |s| ==> s[i] == s[0]
  {
    var t := ToSet(s);
    assert s[0] in t;
    if forall i :: 0 <= i < |s| ==> s[i] == s[0] {
      assert t == {s[0]};
    }
    if |t| == 1 {
      forall i | 0 <= i < |s| ensures s[i] == s[0] {
        assert s[i] in t;
        assert |t - {s[0]}| == 0;
      }
    }
  }

  /** A sequence is empty iff it has no elements. */
  lemma EmptyIffNoElements<T>(s: seq<T>)
    ensures |s| == 0 <==> ToSet(s) == {}
  {
    if |s| > 0 {
      assert s[0] in ToSet(s);
    }
  }

  /** The numbers 0, 1, ..., n - 1 in order. */
  function Iota(n: nat): (r: seq<int>)
    ensures |r| == n && forall i :: 0 <= i < n ==> r[i] == i
  {
    seq(n, i => i)
  }

  /** A duplicate-free sequence of numbers below `n` that contains every number below `n` has length `n`. */
  lemma PermutationOfRange(s: seq<int>, n: nat)
    requires NoDup(s)
    requires forall i :: 0 <= i < |s| ==> 0 <= s[i] < n
    requires forall x :: 0 <= x < n ==> x in s
    ensures |s| == n
  {
    var r := Iota(n);
    SetCardinality(s);
    SetCardinality(r);
    forall x | x in ToSet(s) ensures x in ToSet(r) {
      assert r[x] == x;
    }
    assert ToSet(s) == ToSet(r);
  }

  /** `a` is obtained from `b` by deleting some elements, the rest staying in order. */
  predicate IsSubseq<T(==)>(a: seq<T>, b: seq<T>)
    decreases |b|
  {
    if |a| == 0 then true
    else if |b| == 0 then false
    else if a[0] == b[0] then IsSubseq(a[1..], b[1..])
    else IsSubseq(a, b[1..])
  }

  /** Every element of a subsequence occurs in the original, and a subsequence of a duplicate-free sequence is duplicate-free. */
  lemma {:induction false} SubseqFacts<T>(a: seq<T>, b: seq<T>)
    requires IsSubseq(a, b)
    ensures forall x :: x in a ==> x in b
    ensures NoDup(b) ==> NoDup(a)
    decreases |b|
  {
    if |a| == 0 {
    } else if a[0] == b[0] {
      SubseqFacts(a[1..], b[1..]);
      assert forall x :: x in a ==> x == a[0] || x in a[1..];
      if NoDup(b) {
        assert NoDup(b[1..]) by {
          forall i, j | 0 <= i < j < |b[1..]| ensures b[1..][i] != b[1..][j] {
            assert b[1..][i] == b[i + 1] && b[1..][j] == b[j + 1];
          }
        }
        assert a[0] !in a[1..];
        forall i, j | 0 <= i < j < |a| ensures a[i] != a[j] {
          if i == 0 {
            assert a[j] == a[1..][j - 1];
          } else {
            assert a[i] == a[1..][i - 1] && a[j] == a[1..][j - 1];
          }
        }
      }
    } else {
      SubseqFacts(a, b[1..]);
      if NoDup(b) {
        assert NoDup(b[1..]) by {
          forall i, j | 0 <= i < j < |b[1..]| ensures b[1..][i] != b[1..][j] {
            assert b[1..][i] == b[i + 1] && b[1..][j] == b[j + 1];
          }
        }
      }
    }
  }

  /** Inserting an element that is not present keeps a sequence duplicate-free. */
  lemma InsertNoDup<T>(s: seq<T>, pos: int, x: T)
    requires NoDup(s) && x !in s && 0 <= pos <= |s|
    ensures NoDup(s[..pos] + [x] + s[pos..])
  {
    var r := s[..pos] + [x] + s[pos..];
    forall i, j | 0 <= i < j < |r| ensures r[i] != r[j] {
      if j < pos {
        assert r[i] == s[i] && r[j] == s[j];
      } else if j == pos {
        assert r[i] == s[i] && r[j] == x;
      } else if i < pos {
        assert r[i] == s[i] && r[j] == s[j - 1];
      } else if i == pos {
        assert r[i] == x && r[j] == s[j - 1];
      } else {
        assert r[i] == s[i - 1] && r[j] == s[j - 1];
      }
    }
  }

  /** Cutting out position i and putting the element back at i gives the sequence back. */
  lemma InsertAtSplit<T>(s: seq<T>, i: int)
    requires 0 <= i < |s|
    ensures var t := s[..i] + s[i + 1..]; i <= |t| && t[..i] + [s[i]] + t[i..] == s
  {
    var t := s[..i] + s[i + 1..];
    assert t[..i] == s[..i];
    assert t[i..] == s[i + 1..];
  }

  /** Inserting an absent element at pos puts its first occurrence at pos, and cutting it out gives the sequence back. */
  lemma InsertThenCut<T>(s: seq<T>, pos: int, x: T)
    requires 0 <= pos <= |s| && x !in s
    ensures var t := s[..pos] + [x] + s[pos..]; IndexOf(t, x) == pos && t[..pos] + t[pos + 1..] == s
  {
    var t := s[..pos] + [x] + s[pos..];
    forall j | 0 <= j < pos ensures t[j] != x {
      assert t[j] == s[j];
    }
    assert t[..pos] == s[..pos] && t[pos + 1..] == s[pos..];
  }

  /** Dropping the first element keeps a sequence duplicate-free and adds no element. */
  lemma DropFirstNoDup<T>(s: seq<T>)
    requires |s| > 0
    ensures NoDup(s) ==> NoDup(s[1..])
    ensures forall x :: x in s[1..] ==> x in s
  {
    if NoDup(s) {
      forall i, j | 0 <= i < j < |s| - 1 ensures s[1..][i] != s[1..][j] {
        assert s[1..][i] == s[i + 1] && s[1..][j] == s[j + 1];
      }
    }
  }

  /** Deleting the element at `i` from a duplicate-free sequence leaves exactly the other elements, still duplicate-free. */
  lemma RemoveAtNoDup<T>(s: seq<T>, i: int)
    requires NoDup(s) && 0 <= i < |s|
    ensures NoDup(s[..i] + s[i + 1..])
    ensures forall x :: x in s[..i] + s[i + 1..] <==> x in s && x != s[i]
  {
    var r := s[..i] + s[i + 1..];
    assert forall a :: 0 <= a < |r| ==> r[a] == (if a < i then s[a] else s[a + 1]);
    forall a, b | 0 <= a < b < |r| ensures r[a] != r[b] {
      assert r[a] == (if a < i then s[a] else s[a + 1]);
      assert r[b] == (if b < i then s[b] else s[b + 1]);
    }
    forall x ensures x in r <==> x in s && x != s[i] {
      if x in s && x != s[i] {
        var a :| 0 <= a < |s| && s[a] == x;
        if a < i {
          assert r[a] == x;
        } else {
          assert r[a - 1] == x;
        }
      }
      if x in r {
        var a :| 0 <= a < |r| && r[a] == x;
        if a < i {
          assert s[a] == x;
        } else {
          assert s[a + 1] == x;
        }
      }
    }
  }

  /** Taking away the first element and then the rest takes away the whole sequence. */
  lemma SubtractHeadThenTail<T>(m: multiset<T>, s: seq<T>)
    requires |s| > 0
    ensures m - multiset{s[0]} - multiset(s[1..]) == m - multiset(s)
  {
    assert s == [s[0]] + s[1..];
    var b, c := multiset{s[0]}, multiset(s[1..]);
    assert forall x :: (m - b - c)[x] == (m - (b + c))[x];
  }
}

=== FILE: set_rule.dfy ===
/**
  The "all the same or all different" rule of the game and the exhaustive
  search for sets among a list of cards.
*/
module SetRule {
  import opened Wrappers
  import opened Sequences
  import opened Cards
  import opened Combinations

  // ----- the rule for one attribute -----

  /** The values the cards take for attribute n, in card order (absent where a card lacks the key). */
  function Column(cards: seq<Card>, n: Name): (col: seq<Option<Value>>)
    ensures |col| == |cards| && forall i :: 0 <= i < |cards| ==> col[i] == Attribute(cards[i], n)
    ensures forall x :: x in col <==> exists c :: c in cards && Attribute(c, n) == x
  {
    var col := seq(|cards|, i requires 0 <= i < |cards| => Attribute(cards[i], n));
    assert forall x :: x in col <==> exists c :: c in cards && Attribute(c, n) == x by {
      forall x ensures x in col <==> exists c :: c in cards && Attribute(c, n) == x {
        if x in col {
          var i :| 0 <= i < |col| && col[i] == x;
          assert cards[i] in cards;
        }
        if exists c :: c in cards && Attribute(c, n) == x {
          var c :| c in cards && Attribute(c, n) == x;
          var i :| 0 <= i < |cards| && cards[i] == c;
          assert col[i] == x;
        }
      }
    }
    col
  }

  /** How many distinct values the cards take for attribute n. */
  function DistinctValues(cards: seq<Card>, n: Name): nat {
    |ToSet(Column(cards, n))|
  }

  /** The rule fails for n: the number of distinct values is neither 1 nor the number of cards. */
  predicate Mismatched(cards: seq<Card>, n: Name) {
    var d := DistinctValues(cards, n);
    d != 1 && d != |cards|
  }

  /** All cards take the same value for n. */
  predicate AllSame(cards: seq<Card>, n: Name) {
    forall i :: 0 <= i < |cards| ==> Attribute(cards[i], n) == Attribute(cards[0], n)
  }

  /** No two cards take the same value for n. */
  predicate AllDifferent(cards: seq<Card>, n: Name) {
    forall i, j :: 0 <= i < j < |cards| ==> Attribute(cards[i], n) != Attribute(cards[j], n)
  }

  /** Counting distinct values decides the rule exactly as the pairwise reading of "all same or all different" does. */
  lemma MismatchedIffNeitherSameNorDifferent(cards: seq<Card>, n: Name)
    requires |cards| > 0
    ensures !Mismatched(cards, n) <==> AllSame(cards, n) || AllDifferent(cards, n)
  {
    var col := Column(cards, n);
    SetCardinality(col);
    SingleElementIffConstant(col);
    assert NoDup(col) <==> AllDifferent(cards, n);
    assert (forall i :: 0 <= i < |col| ==> col[i] == col[0]) <==> AllSame(cards, n);
  }

  // ----- mismatchedAttributes -----

  /** The names of `names` for which the rule fails, in order. */
  function FilterMismatched(names: seq<Name>, cards: seq<Card>): (r: seq<Name>)
    ensures forall n :: n in r <==> n in names && Mismatched(cards, n)
    ensures IsSubseq(r, names)
  {
    if |names| == 0 then []
    else
      var rest := FilterMismatched(names[1..], cards);
      if Mismatched(cards, names[0]) then [names[0]] + rest
      else
        assert rest == [] || rest[0] != names[0];
        rest
  }

  /**
    mismatchedAttributes: the first card's attribute names for which the rule
    fails, in the first card's key order; nothing for an empty list.
  */
  function MismatchedAttributes(cards: seq<Card>): (r: seq<Name>)
    ensures |cards| == 0 ==> r == []
    ensures |cards| > 0 ==> forall n :: n in r <==> n in AttributeNames(cards[0]) && Mismatched(cards, n)
    ensures |cards| > 0 ==> IsSubseq(r, AttributeNames(cards[0]))
    ensures |cards| > 0 && DistinctNames(cards[0]) ==> NoDup(r)
  {
    if |cards| == 0 then []
    else
      var r := FilterMismatched(AttributeNames(cards[0]), cards);
      SubseqFacts(r, AttributeNames(cards[0]));
      r
  }

  /** Every card has the same keys as the first, the precondition the source states for the rule. */
  predicate SameKeys(cards: seq<Card>) {
    forall i :: 0 <= i < |cards| ==> ToSet(AttributeNames(cards[i])) == ToSet(AttributeNames(cards[0]))
  }

  /** A value occurs in the column iff some card of the list takes it. */
  lemma InColumn(cards: seq<Card>, n: Name, x: Option<Value>)
    ensures x in Column(cards, n) <==> exists c :: c in cards && Attribute(c, n) == x
  {
  }

  /** Reordering the cards does not change the values seen for an attribute. */
  lemma ColumnValuesOrderIndependent(cards: seq<Card>, cards': seq<Card>, n: Name)
    requires multiset(cards) == multiset(cards')
    ensures ToSet(Column(cards, n)) == ToSet(Column(cards', n))
  {
    forall x ensures x in Column(cards, n) <==> x in Column(cards', n) {
      InColumn(cards, n, x);
      InColumn(cards', n, x);
      forall c ensures c in cards <==> c in cards' {
        assert c in cards <==> c in multiset(cards);
        assert c in cards' <==> c in multiset(cards');
      }
    }
  }

  /** Which names are reported does not depend on the order of the cards. */
  lemma MismatchedOrderIndependent(cards: seq<Card>, cards': seq<Card>)
    requires multiset(cards) == multiset(cards')
    requires SameKeys(cards)
    ensures ToSet(MismatchedAttributes(cards)) == ToSet(MismatchedAttributes(cards'))
  {
    assert |cards| == |multiset(cards)| == |multiset(cards')| == |cards'|;
    if |cards| > 0 {
      FirstCardKeys(cards, cards');
      forall n ensures n in MismatchedAttributes(cards) <==> n in MismatchedAttributes(cards') {
        MismatchedOrderIndependentAt(cards, cards', n);
      }
    }
  }

  /** After reordering, the new first card still has the keys of the old one. */
  lemma FirstCardKeys(cards: seq<Card>, cards': seq<Card>)
    requires multiset(cards) == multiset(cards') && |cards'| > 0
    requires SameKeys(cards)
    ensures |cards| > 0 && ToSet(AttributeNames(cards'[0])) == ToSet(AttributeNames(cards[0]))
  {
    assert cards'[0] in multiset(cards);
    var k :| 0 <= k < |cards| && cards[k] == cards'[0];
  }

  /** One name is reported for a list exactly when it is reported for any reordering of it. */
  lemma MismatchedOrderIndependentAt(cards: seq<Card>, cards': seq<Card>, n: Name)
    requires multiset(cards) == multiset(cards') && |cards| == |cards'| > 0
    requires ToSet(AttributeNames(cards'[0])) == ToSet(AttributeNames(cards[0]))
    ensures n in MismatchedAttributes(cards) <==> n in MismatchedAttributes(cards')
  {
    ColumnValuesOrderIndependent(cards, cards', n);
    var names, names' := AttributeNames(cards[0]), AttributeNames(cards'[0]);
    assert n in names <==> n in ToSet(names);
    assert n in names' <==> n in ToSet(names');
  }

  // ----- isSet -----

  /** isSet: exactly k cards and no mismatched attribute. */
  function IsSet(cards: seq<Card>, k: int): (b: bool)
    ensures b ==> |cards| == k
    ensures |cards| == 0 ==> (b <==> k == 0)
  {
    |cards| == k && |MismatchedAttributes(cards)| == 0
  }

  /** The game's definition of a set: for every attribute, all the same or all different. */
  predicate SetRuleHolds(cards: seq<Card>) {
    |cards| == 0 || forall n :: n in AttributeNames(cards[0]) ==> AllSame(cards, n) || AllDifferent(cards, n)
  }

  /** isSet holds iff the count is right and the game's rule holds for every attribute. */
  lemma IsSetIffSetRule(cards: seq<Card>, k: int)
    ensures IsSet(cards, k) <==> |cards| == k && SetRuleHolds(cards)
  {
    if |cards| > 0 {
      var r := MismatchedAttributes(cards);
      forall n | n in AttributeNames(cards[0]) ensures !Mismatched(cards, n) <==> AllSame(cards, n) || AllDifferent(cards, n) {
        MismatchedIffNeitherSameNorDifferent(cards, n);
      }
      if |r| > 0 {
        assert r[0] in r;
      }
    }
  }

  /** Whether a list of cards is a set does not depend on its order. */
  lemma IsSetOrderIndependent(cards: seq<Card>, cards': seq<Card>, k: int)
    requires multiset(cards) == multiset(cards') && SameKeys(cards)
    ensures IsSet(cards, k) <==> IsSet(cards', k)
  {
    MismatchedOrderIndependent(cards, cards');
    EmptyIffNoElements(MismatchedAttributes(cards));
    EmptyIffNoElements(MismatchedAttributes(cards'));
    assert |cards| == |multiset(cards)| == |cards'|;
  }

  // ----- possibleSets -----

  predicate InRange(t: seq<int>, n: int) {
    forall i :: 0 <= i < |t| ==> 0 <= t[i] < n
  }

  /** The cards at the given positions, in the order of the positions. */
  function Pick(cards: seq<Card>, t: seq<int>): (r: seq<Card>)
    requires InRange(t, |cards|)
    ensures |r| == |t| && forall i :: 0 <= i < |t| ==> r[i] == cards[t[i]]
    ensures forall x :: x in r ==> x in cards
    ensures NoDup(cards) && (forall a, b :: 0 <= a < b < |t| ==> t[a] < t[b]) ==> NoDup(r)
  {
    var r := seq(|t|, i requires 0 <= i < |t| => cards[t[i]]);
    assert forall x :: x in r ==> x in cards by {
      forall x | x in r ensures x in cards {
        var i :| 0 <= i < |r| && r[i] == x;
        assert cards[t[i]] in cards;
      }
    }
    assert NoDup(cards) && (forall a, b :: 0 <= a < b < |t| ==> t[a] < t[b]) ==> NoDup(r) by {
      if NoDup(cards) && (forall a, b :: 0 <= a < b < |t| ==> t[a] < t[b]) {
        forall a, b | 0 <= a < b < |r| ensures r[a] != r[b] {
          assert t[a] < t[b];
        }
      }
    }
    r
  }

  /** The index tuples whose cards form a set, in their original order. */
  function KeepSets(cards: seq<Card>, k: int, ts: seq<seq<int>>): (r: seq<seq<int>>)
    requires forall t :: t in ts ==> InRange(t, |cards|)
    ensures forall t :: t in r <==> t in ts && IsSet(Pick(cards, t), k)
    ensures LexSorted(ts) ==> LexSorted(r)
  {
    if |ts| == 0 then []
    else
      var rest := KeepSets(cards, k, ts[1..]);
      if IsSet(Pick(cards, ts[0]), k) then
        assert LexSorted(ts) ==> forall j :: 0 <= j < |rest| ==> LexLess(ts[0], rest[j]) by {
          if LexSorted(ts) {
            forall j | 0 <= j < |rest| ensures LexLess(ts[0], rest[j]) {
              assert rest[j] in ts[1..];
              var m :| 0 <= m < |ts[1..]| && ts[1..][m] == rest[j];
              assert ts[m + 1] == rest[j];
            }
          }
        }
        assert LexSorted(ts) ==> LexSorted(ts[1..]) by {
          if LexSorted(ts) {
            forall i, j | 0 <= i < j < |ts[1..]| ensures LexLess(ts[1..][i], ts[1..][j]) {
              assert ts[1..][i] == ts[i + 1] && ts[1..][j] == ts[j + 1];
            }
          }
        }
        [ts[0]] + rest
      else
        assert LexSorted(ts) ==> LexSorted(ts[1..]) by {
          if LexSorted(ts) {
            forall i, j | 0 <= i < j < |ts[1..]| ensures LexLess(ts[1..][i], ts[1..][j]) {
              assert ts[1..][i] == ts[i + 1] && ts[1..][j] == ts[j + 1];
            }
          }
        }
        rest
  }

  /**
    The index tuples possibleSets reports: exactly the strictly increasing
    k-tuples of positions whose cards form a set, in ascending lexicographic
    order. With k = 0 the source's index loop never starts, so there are none.
  */
  function SetIndices(cards: seq<Card>, k: nat): (r: seq<seq<int>>)
    ensures forall t :: t in r <==> 0 < k && IsCombination(t, 0, |cards|, k) && IsSet(Pick(cards, t), k)
    ensures forall i :: 0 <= i < |r| ==> InRange(r[i], |cards|)
    ensures LexSorted(r)
  {
    if k == 0 then []
    else
      var all := Combos(0, |cards|, k);
      CombosSorted(0, |cards|, k);
      assert forall t :: IsCombination(t, 0, |cards|, k) ==> t in all by {
        forall t | IsCombination(t, 0, |cards|, k) ensures t in all {
          CombosComplete(0, |cards|, k, t);
        }
      }
      var r := KeepSets(cards, k, all);
      assert forall i :: 0 <= i < |r| ==> InRange(r[i], |cards|) by {
        forall i | 0 <= i < |r| ensures InRange(r[i], |cards|) {
          assert r[i] in r;
        }
      }
      r
  }

  /** A strictly increasing k-tuple of positions needs at least k positions. */
  lemma SetIndicesTooMany(cards: seq<Card>, k: nat)
    requires |cards| < k
    ensures SetIndices(cards, k) == []
  {
    var idx := SetIndices(cards, k);
    if idx != [] {
      var t := idx[0];
      assert t in idx;
      IncreasingAtLeastIndex(t, k - 1);
      assert false;
    }
  }

  /**
    possibleSets: the card lists of SetIndices. Every reported list is a set,
    every set drawn at increasing positions is reported, and nothing is
    reported when k is 0 or exceeds the number of cards.
  */
  function PossibleSets(cards: seq<Card>, k: nat): (r: seq<seq<Card>>)
    ensures |r| == |SetIndices(cards, k)|
    ensures forall i :: 0 <= i < |r| ==> r[i] == Pick(cards, SetIndices(cards, k)[i])
    ensures forall s :: s in r ==> IsSet(s, k)
    ensures forall t :: 0 < k && IsCombination(t, 0, |cards|, k) && IsSet(Pick(cards, t), k) ==> Pick(cards, t) in r
    ensures (k == 0 || |cards| < k) ==> r == []
  {
    var idx := SetIndices(cards, k);
    var r := seq(|idx|, i requires 0 <= i < |idx| => Pick(cards, idx[i]));
    PickAll(cards, k, idx, r);
    if |cards| < k then SetIndicesTooMany(cards, k); r else r
  }

  lemma PickAll(cards: seq<Card>, k: nat, idx: seq<seq<int>>, r: seq<seq<Card>>)
    requires idx == SetIndices(cards, k)
    requires forall i :: 0 <= i < |idx| ==> InRange(idx[i], |cards|)
    requires |r| == |idx| && forall i :: 0 <= i < |idx| ==> r[i] == Pick(cards, idx[i])
    ensures forall s :: s in r ==> IsSet(s, k)
    ensures forall t :: 0 < k && IsCombination(t, 0, |cards|, k) && IsSet(Pick(cards, t), k) ==> Pick(cards, t) in r
  {
    forall s | s in r ensures IsSet(s, k) {
      var i :| 0 <= i < |r| && r[i] == s;
      assert idx[i] in idx;
    }
    forall t | 0 < k && IsCombination(t, 0, |cards|, k) && IsSet(Pick(cards, t), k) ensures Pick(cards, t) in r {
      var i :| 0 <= i < |idx| && idx[i] == t;
      assert r[i] == Pick(cards, t);
    }
  }

  lemma {:induction false} IncreasingAtLeastIndex(t: seq<int>, i: int)
    requires (forall a, b :: 0 <= a < b < |t| ==> t[a] < t[b]) && (forall a :: 0 <= a < |t| ==> 0 <= t[a])
    requires 0 <= i < |t|
    ensures t[i] >= i
  {
    if i > 0 {
      IncreasingAtLeastIndex(t, i - 1);
    }
  }

  /** From a duplicate-free list, every reported set is itself duplicate-free and no set is reported twice. */
  lemma PossibleSetsDistinct(cards: seq<Card>, k: nat)
    requires NoDup(cards)
    ensures forall s :: s in PossibleSets(cards, k) ==> NoDup(s)
    ensures NoDup(PossibleSets(cards, k))
  {
    var idx := SetIndices(cards, k);
    var r := PossibleSets(cards, k);
    forall s | s in r ensures NoDup(s) {
      var i :| 0 <= i < |r| && r[i] == s;
      assert idx[i] in idx;
      forall a, b | 0 <= a < b < |s| ensures s[a] != s[b] {
        assert s[a] == cards[idx[i][a]] && s[b] == cards[idx[i][b]];
      }
    }
    LexSortedNoDup(idx);
    forall i, j | 0 <= i < j < |r| ensures r[i] != r[j] {
      assert idx[i] in idx && idx[j] in idx;
      PickInjective(cards, idx[i], idx[j]);
    }
  }

  /** Over a duplicate-free list, equal picks come from equal position tuples. */
  lemma PickInjective(cards: seq<Card>, t1: seq<int>, t2: seq<int>)
    requires NoDup(cards) && InRange(t1, |cards|) && InRange(t2, |cards|) && |t1| == |t2|
    ensures Pick(cards, t1) == Pick(cards, t2) ==> t1 == t2
  {
    if Pick(cards, t1) == Pick(cards, t2) {
      forall a | 0 <= a < |t1| ensures t1[a] == t2[a] {
        assert cards[t1[a]] == Pick(cards, t1)[a] == Pick(cards, t2)[a] == cards[t2[a]];
      }
    }
  }

  /** Every card of every set found is one of the input cards. */
  lemma PossibleSetsSubset(cards: seq<Card>, k: nat)
    ensures forall s, x :: s in PossibleSets(cards, k) && x in s ==> x in cards
  {
    var idx := SetIndices(cards, k);
    var r := PossibleSets(cards, k);
    forall s, x | s in r && x in s ensures x in cards {
      var i :| 0 <= i < |r| && r[i] == s;
      var a :| 0 <= a < |s| && s[a] == x;
      assert x == cards[idx[i][a]];
    }
  }
}

=== FILE: wrappers.dfy ===
/** The "absent" sentinel of the engine: JavaScript's `undefined`/`null` results become `None`. */
module Wrappers {

  datatype Option<+T> = None | Some(value: T)

}
